=== FILE: README.md ===
# Per-event audio rendering of the Strudel web-audio output

This project models what Strudel's `webaudio` package does for a single
hap (a scheduled musical event) when a pattern is played with `.out()`.
The handler that `Pattern.prototype.out` registers does the following:

- It works out the hap's onset on the audio clock.
- It reads the hap's controls, applying the defaults from destructuring.
- It splits compound names such as `"bd:3"` into a name and an index.
- It then takes one of two paths:
  - the synth path builds an oscillator, a fixed 0.3 level-down and an
    ADSR envelope;
  - the sample path resolves a buffer, either from a soundfont instrument
    or from a loaded sample bank, and plays it trimmed and sped up or down.
- It appends the common tail: the master gain, the optional lowpass,
  highpass and bandpass filters, the optional panner, and the output.
- Finally it wires each stage to the next one.

The sample path can drop an event without a sound. This happens for speed
0, when resolution fails (the error is caught), when the clock has passed
the onset by the time loading finishes, or when the soundfont returned no
source.

The model is a set of pure functions. The result of one event is an
`Outcome`: either `Dropped(why)` or `Played(chain)`, where the chain is the
list of scheduled stages in wiring order. Everything the handler reads from
outside the file is a parameter, bundled in `World`:

- the audio clock, read once at trigger time and once after loading;
- the loaded sample banks and the soundfont list;
- the pitch helpers `toMidi` and `fromMidi`;
- `loadBuffer`;
- the soundfont package's buffer request.

Modules, one per concern of the source:

- `JsValues` (values.dfy): optional values, number-or-string controls,
  JavaScript truthiness, `startsWith`, `Number(...)` on strings that
  spell an integer, and decimal printing.
- `SplitName` (split_name.dfy): `splitSN`.
- `SampleBank` (sample_bank.dfy): the selection part of
  `getSampleBufferSource`. This covers index wrap-around, the nearest
  note key, and transposition.
- `Soundfont` (soundfont.dfy): `getSoundfontKey`.
- `Envelope` (envelope.dfy): `getADSR`.
- `Chain` (chain.dfy): the stages, their fixed order, the common tail, and
  the `reduce` that connects them.
- `Trigger` (trigger.dfy): the body of the `out` handler.
- `OutProperties` (out_properties.dfy): properties of the handler as a
  whole.

The chain order follows the code: voice stages, master gain, lowpass,
highpass, bandpass, panner, output. The code pushes the master gain right
after the voice (lines 248-251); a second master gain after the panner is
commented out (lines 265-268).

Four functions are plain definitions whose meaning is stated by a lemma
about them rather than by their own contract: `OutProperties.FilterControl`,
the frequency and resonance controls of each filter with their default
(see `OutProperties.ChainFilter`), `Trigger.AlignedTime` (see
`Trigger.AlignedSpacing`), `SampleBank.ArrayTranspose` (see
`SampleBank.ArraySelection`) and `Chain.FilterStage` (see
`OutProperties.ChainFilter`). Rows marked "Proof helper" are arithmetic or
sequence facts the other proofs rest on.

## Model

| member | source | states |
|---|---|---|
| SplitName.UpToColon | packages/webaudio/webaudio.mjs:120 | The first part of `s.split(':')` contains no colon, is a prefix of `s`, and ends at the first colon. It is shorter than `s` whenever `s` has a colon. |
| SplitName.SplitSN | packages/webaudio/webaudio.mjs:116-125 | A name without a colon comes back unchanged with its index. Any other outcome replaces the index with a numeric string. Both the name and the index are then colon-free, and `name:index` is how the input begins. |
| SplitName.PartsOf | packages/webaudio/webaudio.mjs:120 | For `name:index` followed by nothing or another `:`-part, the two parts `split` yields are exactly `name` and `index`. |
| SplitName.SplitRecoversParts | packages/webaudio/webaudio.mjs:116-125 | Round trip: joining a name and a numeric index with `:` and splitting the result gives both back, whatever index was passed in. |
| SplitName.SplitKeepsNonNumeric | packages/webaudio/webaudio.mjs:121-123 | When the index part is not numeric, the whole name and the original index are returned. |
| SplitName.SplitCoversAll | packages/webaudio/webaudio.mjs:117-120 | Every name with a colon has the shape the two lemmas above take, so between them they cover every input. |
| SplitName.Reassemble | packages/webaudio/webaudio.mjs:120 | Proof helper: cutting a string at a colon and at a later point, then joining the pieces with the colon, gives the string back. |
| JsValues.NumericValue | packages/webaudio/webaudio.mjs:121 | `Number("")` is 0, and a digit run reads as its decimal value. A leading `-` negates the value of the digits after it, and a leading `+` keeps it. |
| JsValues.SignedNumeric | packages/webaudio/webaudio.mjs:121 | A signed digit run is numeric; `-` gives the negated value of the unsigned run and `+` the same value. |
| JsValues.IsNumeric | packages/webaudio/webaudio.mjs:121 | Every digit run is numeric. A numeric string never contains a colon, and a non-empty one ends in a digit. |
| JsValues.OrElse | packages/webaudio/webaudio.mjs:135-158 | A destructuring default applies exactly when the control is undefined; a present control, even a falsy one, is kept. |
| JsValues.DecimalRoundTrip | packages/webaudio/webaudio.mjs:63 | Reading back the decimal spelling of a number gives the number. |
| JsValues.DecimalLength | packages/webaudio/webaudio.mjs:63 | Proof helper: below 1000, a number has 1, 2 or 3 digits according to its magnitude. |
| JsValues.LeadingZero | packages/webaudio/webaudio.mjs:63 | A leading `0` keeps a digit run a digit run and does not change its value. |
| JsValues.NumericDecimal | packages/webaudio/webaudio.mjs:121 | The printed index of a number is numeric, and `Number` of it is the number again. |
| Envelope.ADSR | packages/webaudio/webaudio.mjs:31-37 | The envelope is five breakpoints. It jumps to silence at `begin`, ramps to `velocity` over `attack`, ramps to `sustain * velocity` over `decay`, holds that level with a jump at `end`, and ramps to silence `release` after `end`. |
| Envelope.AdsrShape | packages/webaudio/webaudio.mjs:31-37 | For sustain in [0, 1] and a non-negative velocity, the levels rise, fall, hold, then fall to 0. The last fall is strict when sustain and velocity are positive. Every level lies between 0 and the peak. |
| Envelope.AdsrTimesOrdered | packages/webaudio/webaudio.mjs:31-37 | The breakpoints are in time order when the stage lengths are non-negative and the sustain does not end before the decay does. |
| Soundfont.IndexOf | packages/webaudio/webaudio.mjs:61 | `indexOf` returns -1 exactly when the name is absent. Otherwise it returns the first position holding the name. |
| Soundfont.Pad3 | packages/webaudio/webaudio.mjs:63 | The padded instrument number is a digit string whose value is the number. It is exactly three characters below 1000 and at least three characters otherwise. |
| Soundfont.DecimalLabelLength | packages/webaudio/webaudio.mjs:63 | Proof helper: numbers from 100 on print with at least three digits, so they need no padding. |
| Soundfont.Pad3Injective | packages/webaudio/webaudio.mjs:63 | Different instrument positions give different prefixes. |
| Soundfont.FirstPrefixed | packages/webaudio/webaudio.mjs:66 | `find` with `startsWith` stops at the first key with the prefix. It finds none exactly when no key has the prefix. |
| Soundfont.SoundfontKey | packages/webaudio/webaudio.mjs:52-69 | There is no key without a font list. An instrument key resolves to itself. Any other name resolves exactly when it is a listed instrument name and some key starts with its padded position, and then to a key with that prefix. A result is always a listed key. |
| Soundfont.KeyIsFirstPrefixed | packages/webaudio/webaudio.mjs:64-66 | The key found is the first one in the list with the padded prefix. |
| Soundfont.NameResolvesByPosition | packages/webaudio/webaudio.mjs:61-66 | A name first listed at position `p` resolves to the first key when that key starts with `p` padded to three digits. |
| SampleBank.JsRemainder | packages/webaudio/webaudio.mjs:91 | JavaScript's `%` is smaller in magnitude than the divisor and takes the dividend's sign. |
| SampleBank.JsRemainderDivides | packages/webaudio/webaudio.mjs:91 | The dividend minus JavaScript's remainder is a multiple of the divisor, so together with the bound and the sign the remainder is the truncated-division one. |
| SampleBank.PickAsWritten | packages/webaudio/webaudio.mjs:91 | `bank[n % bank.length]` as written reads nothing from an empty bank. A non-negative index reads the URL at `n mod length`. A negative index reads nothing exactly when the bank length does not divide it. |
| SampleBank.Pick | packages/webaudio/webaudio.mjs:91 | Corrected indexing gives a URL exactly when the bank is non-empty. The URL is one of the bank's, and an in-range index gives the URL at that index. |
| SampleBank.PickWraps | packages/webaudio/webaudio.mjs:91 | Picking is periodic in the index with the bank's length, in both directions. |
| SampleBank.ModUnique | packages/webaudio/webaudio.mjs:91 | Proof helper: any quotient-remainder split of the index determines the wrapped position. |
| SampleBank.MultipleAtLeast | packages/webaudio/webaudio.mjs:91 | Proof helper: a non-zero multiple of the bank length is at least one bank length away from 0. |
| SampleBank.MultipleBelow | packages/webaudio/webaudio.mjs:91 | Proof helper: the only multiple of the bank length strictly within one length of 0 is 0. |
| SampleBank.PickAgreesOnNaturals | packages/webaudio/webaudio.mjs:91 | The code as written and the corrected indexing agree on every non-negative index. |
| SampleBank.NegativeIndexMissesAsWritten | packages/webaudio/webaudio.mjs:91 | Index -1 of a three-sample bank reads nothing as written, whereas the corrected indexing gives the last sample. |
| SampleBank.IndexValue | packages/webaudio/webaudio.mjs:91 | A number indexes as itself. A string indexes exactly when `Number` reads it as a number, and then as the value `Number` gives. |
| SampleBank.PickVal | packages/webaudio/webaudio.mjs:90-91 | With the corrected indexing, a control value picks a URL exactly when the bank is non-empty and the value is numeric. The URL is one of the bank's. |
| SampleBank.Candidates | packages/webaudio/webaudio.mjs:98-99 | The keys considered are exactly the bank's keys that do not start with `_`; a single key is kept or dropped on that test alone. |
| SampleBank.CandidatesAppend | packages/webaudio/webaudio.mjs:98-99 | The filter keeps key order: the candidates of two runs of keys are those of the first run followed by those of the second. |
| SampleBank.Dist | packages/webaudio/webaudio.mjs:96-101 | The distance is zero exactly when the key and the note have the same MIDI number, and otherwise the absolute difference of the two. |
| SampleBank.Nearest | packages/webaudio/webaudio.mjs:98-103 | The `reduce` chooses a key exactly when there are candidates, and the key it chooses is one of them. |
| SampleBank.NearestIsFirstNearest | packages/webaudio/webaudio.mjs:98-103 | The `reduce` chooses a key at least as near as every other key, and strictly nearer than every earlier key. So a tie goes to the first key. |
| SampleBank.FirstNearestUnique | packages/webaudio/webaudio.mjs:98-103 | Only one key is the first nearest, so that property determines the choice. |
| SampleBank.Select | packages/webaudio/webaudio.mjs:71-106 | Each thrown error is characterised exactly: no samples; no such bank or a falsy one; a truthy bank that is not an object; no note for a note-keyed bank; no key left once `_` keys are dropped. An array bank yields a URL exactly when it is non-empty and the index is numeric, and otherwise reports no sample at that index. Under the nearest key the same holds for that key's URL list. An array bank yields one of its URLs with the array repitch; a note-keyed bank yields a URL under a non-`_` key, repitched by the note's distance from that key. |
| SampleBank.ArraySelection | packages/webaudio/webaudio.mjs:72-91 | An array bank plays the URL at the index read from `n` (a number or a numeric string) modulo its length; for a non-negative index this is the URL the code as written reads. The repitch is the note's MIDI number minus 36 when a truthy note is given and 0 otherwise. |
| SampleBank.NoteChoice | packages/webaudio/webaudio.mjs:93-105 | A note-keyed bank plays from the key the `reduce` settles on, at the index read from `n` modulo that key's length, repitched by the note's MIDI number minus the key's. |
| SampleBank.NoteSelection | packages/webaudio/webaudio.mjs:93-105 | A note-keyed bank plays from the first nearest key, at the index read from `n` modulo that key's length, repitched by the note's MIDI number minus the key's. |
| Chain.Rank | packages/webaudio/webaudio.mjs:161-269 | In the fixed order, rank 0 is exactly the sources and rank 8 is exactly the output. |
| Chain.LinearHasOneSourceAndOneOutput | packages/webaudio/webaudio.mjs:161-269 | A complete chain has its only source first and its only output last. |
| Chain.AppendOrdered | packages/webaudio/webaudio.mjs:161-269 | Pushing ordered later stages after ordered earlier ones keeps the chain ordered. |
| Chain.PanStage | packages/webaudio/webaudio.mjs:260-264 | A panner is added exactly when a pan is set, and its position maps back to the pan control by `(p + 1) / 2`. |
| Chain.Present | packages/webaudio/webaudio.mjs:248-269 | Pushing the set slots in order gives no more stages than slots; a set first slot gives the first stage and a set last slot the last. |
| Chain.PresentMembers | packages/webaudio/webaudio.mjs:254-264 | A stage is pushed exactly when one of the optional slots holds it. |
| Chain.PresentOrdered | packages/webaudio/webaudio.mjs:248-269 | Optional slots in rank order give an ordered piece of chain. |
| Chain.TailSlots | packages/webaudio/webaudio.mjs:248-269 | The tail has six slots ranked 3 to 8: the master gain and the output always, each filter exactly when its frequency is set, the panner exactly when `pan` is set. |
| Chain.Tail | packages/webaudio/webaudio.mjs:248-269 | The common tail starts with the master gain and ends with the output. It holds at least these two stages, it is in the fixed order, and it ranks after every voice stage. |
| Chain.Connect | packages/webaudio/webaudio.mjs:271 | The `reduce` wires each stage to the next and nothing else, one edge fewer than there are stages. |
| Trigger.AlignedSpacing | packages/webaudio/webaudio.mjs:133 | Two triggers keep their spacing on the audio clock, and a hap triggered at the reference time starts at the clock's current time. |
| Trigger.SplitNames | packages/webaudio/webaudio.mjs:162-167 | Splitting keeps which names are present. A numeric note is untouched, and names without colons change nothing. |
| Trigger.NoteIndexWins | packages/webaudio/webaudio.mjs:162-167 | For every colon-free sound name and note key each followed by a numeric index, the sound keeps its name, the note its key, and the note's index is the one kept. |
| Trigger.NoteSplits | packages/webaudio/webaudio.mjs:165-167 | A note `key:index` with a numeric index splits into the key and that index whatever the sound name is, as in `note("c3:2")`; the sound name is split on its own and its index is overridden. |
| Trigger.SoundIndexKept | packages/webaudio/webaudio.mjs:162-164 | When the note carries no index, a sound name `name:index` with a numeric index splits into `name` and keeps `index` as the index, and the note is untouched. |
| Trigger.Names | packages/webaudio/webaudio.mjs:140-167 | Splitting keeps which of `s` and `note` are present, and without colons the names are unchanged and the index defaults to 0. |
| Trigger.IsSynth | packages/webaudio/webaudio.mjs:168 | A missing or empty sound name, or one of the four waveform names, takes the synth path; every other name takes the sample path. |
| Trigger.MasterLevel | packages/webaudio/webaudio.mjs:142-159 | The master level is `gain` when there is no velocity and `velocity` when there is no gain; a zero gain or zero velocity silences the event. |
| Trigger.SynthMidi | packages/webaudio/webaudio.mjs:170-173 | A truthy note wins over the index; a number is used as it is, a string goes through `toMidi`. |
| Trigger.SynthVoice | packages/webaudio/webaudio.mjs:168-188 | The synth voice is an oscillator, then a level-down, then an envelope, in chain order. |
| Trigger.Resolve | packages/webaudio/webaudio.mjs:199-213 | A soundfont name resolves exactly when the soundfont request does not throw, to that key and the presence the request reported; otherwise it fails as a soundfont failure. A sample resolves exactly when selection succeeds and its URL loads, to the selected sample and the duration `loadBuffer` gave; a selection error is passed on unchanged, and a selected sample that does not load is a load failure. |
| Trigger.Clipped | packages/webaudio/webaudio.mjs:225-235 | A soundfont voice is always clipped; a sample is clipped exactly when `clip` is truthy. |
| Trigger.BaseDuration | packages/webaudio/webaudio.mjs:225 | Trimming applies to the hap's duration for a soundfont or clipped sample, and to the buffer's own duration otherwise. |
| Trigger.Playback | packages/webaudio/webaudio.mjs:223-246 | Playback is the buffer source starting at the onset. A fade envelope follows it exactly when the voice is clipped. |
| Trigger.SampleVoice | packages/webaudio/webaudio.mjs:189-246 | A played sample voice starts with a buffer source and keeps the fixed order within the voice stages. |
| Trigger.Voice | packages/webaudio/webaudio.mjs:168-247 | A played voice starts with a source and ranks before the master gain. |
| Trigger.HapTail | packages/webaudio/webaudio.mjs:248-269 | Every event's tail starts with its master level and ends with the output, in the fixed order, after every voice stage. |
| Trigger.Out | packages/webaudio/webaudio.mjs:127-274 | A played chain has at least three stages, starts with a source and ends with the output. |
| OutProperties.OutChainIsLinear | packages/webaudio/webaudio.mjs:161-271 | Every chain the handler builds is complete: one source first, the output last, each kind of stage at most once in the fixed order. The master gain is `gain * velocity`. |
| OutProperties.InChainIffSlot | packages/webaudio/webaudio.mjs:248-269 | A tail-ranked stage is in the chain exactly when its optional slot holds it. |
| OutProperties.ChainFilter | packages/webaudio/webaudio.mjs:254-256 | A filter of each kind is in the chain exactly when its frequency control is set, with that frequency and its Q (default 1). |
| OutProperties.ChainPanAndGain | packages/webaudio/webaudio.mjs:158-263 | The panner is present exactly when `pan` is set, at `2 * pan - 1`. The only master gain is `gain * velocity`. |
| OutProperties.OutFollowsControls | packages/webaudio/webaudio.mjs:248-264 | In every played chain, the filters, panner and master gain are exactly those the controls ask for. |
| OutProperties.SynthPathPlays | packages/webaudio/webaudio.mjs:168-188 | A synth event plays its synth voice followed by the common tail. |
| OutProperties.SynthVoiceShape | packages/webaudio/webaudio.mjs:42-50 | The oscillator type is the sound name, or `triangle` when there is none. It starts at the onset and stops exactly when the envelope reaches silence. The level-down is 0.3, and the envelope has velocity 1 and the documented defaults. |
| OutProperties.SynthPlaysOscillator | packages/webaudio/webaudio.mjs:179-188 | A synth event is never dropped, and its chain begins with the synth voice at the aligned onset for the hap's duration in seconds. |
| OutProperties.SynthFrequency | packages/webaudio/webaudio.mjs:170-177 | The frequency is `freq` when truthy. Otherwise it is `fromMidi` of the note, or of the index when the note is falsy, read through `toMidi` when it is a string. |
| OutProperties.ZeroSpeedDrops | packages/webaudio/webaudio.mjs:191-194 | An event is dropped for speed 0 exactly when it takes the sample path with speed 0. |
| OutProperties.SynthNeverDropped | packages/webaudio/webaudio.mjs:168-188 | Only the sample path drops events. |
| OutProperties.ResolutionFailureDrops | packages/webaudio/webaudio.mjs:202-213 | An event is dropped for a failed resolution exactly when the speed is non-zero and resolution fails, and the drop carries that failure. |
| OutProperties.DeadlineMissDrops | packages/webaudio/webaudio.mjs:215-218 | An event is dropped as still loading exactly when it resolved but the clock read after loading is past the onset. |
| OutProperties.MissingSourceDrops | packages/webaudio/webaudio.mjs:219-222 | An event is dropped for a missing source exactly when a soundfont returned nothing and the deadline was met. |
| OutProperties.SamplePathPlays | packages/webaudio/webaudio.mjs:189-251 | A played sample event is the playback of its resolved source followed by the common tail. |
| OutProperties.PlaybackTiming | packages/webaudio/webaudio.mjs:223-246 | Playback starts at the onset, `begin` of the base duration into the buffer, at `abs(speed)` times the rate. Playing time times `abs(speed)` recovers the trimmed span. A plain sample stops when that time is up. A clipped voice holds 0.6, fades to 0 over 0.1 s, and stops at the end of the fade. |
| OutProperties.SampleOrigin | packages/webaudio/webaudio.mjs:199-209 | The buffer comes from the soundfont key when there is one, and otherwise from the selected sample and its repitch. |
| OutProperties.UntrimmedPlayback | packages/webaudio/webaudio.mjs:225-245 | With default trim and speed, an unclipped sample plays its whole buffer from the onset at the original rate. |
| OutProperties.PlainResolves | packages/webaudio/webaudio.mjs:82-91 | With the bank `bd: ["x.wav"]` and no soundfonts, `bd` at index 0 resolves to that file at its own pitch. |
| OutProperties.PlainSampleVoice | packages/webaudio/webaudio.mjs:189-246 | A plain `bd` event that loads in time plays `x.wav` whole from the onset, followed by the tail. |
| OutProperties.PlainSampleScenario | packages/webaudio/webaudio.mjs:127-271 | Without gain, filters or pan as well, the chain is exactly buffer source, unit gain, output. |
| OutProperties.ReadySourcePlays | packages/webaudio/webaudio.mjs:214-246 | A present source that resolved in time is played. |
| OutProperties.SampleEventPlays | packages/webaudio/webaudio.mjs:189-251 | A sample event that plays has its sample voice followed by the common tail. |
| OutProperties.PresentSkipsEmpty | packages/webaudio/webaudio.mjs:254-264 | An unset optional stage adds nothing to the chain. |
| OutProperties.PresentEnds | packages/webaudio/webaudio.mjs:248-269 | With only the master gain and the output set, the tail is just those two. |
| OutProperties.BareTail | packages/webaudio/webaudio.mjs:248-269 | A hap with no gain, velocity, filters or pan ends in unit gain straight into the output. |
| OutProperties.WireLinear | packages/webaudio/webaudio.mjs:269-271 | Wiring a complete chain starts at the source and ends at the output. Consecutive edges meet at each stage. |

## Left out

- The audio context itself is not modelled. Nodes are values describing their scheduled parameters, and `connect` is an edge list.
- Buffer loading (`loadBuffer`, sampler.mjs) is not part of this model. It is a parameter that yields a buffer duration or a failure.
- The soundfont package's buffer request is a parameter. It can throw, return a source, or return nothing.
- `toMidi` and `fromMidi` are parameters, and their note-name arithmetic is not modelled.
- The playback rate `2^(transpose/12)` is kept as a semitone count. The model keeps the repitch but not the floating-point power.
- `console.warn` calls are not modelled. A drop records its reason instead.
- `async`/`await` and any interleaving of events are not modelled. The only effect of the awaited loading is the second clock read.
- Numbers are modelled as integers for `n` and `note`, and as reals for the other controls. `NaN`, `Infinity` and floating-point rounding are not modelled.
- `Number(...)` on strings covers only the empty string and optionally signed decimal digit runs. Fractions, exponents, hex, surrounding whitespace and `"Infinity"` are not modelled.
- A non-string `s` is not modelled (the `typeof s === 'string'` check at line 162): `s` is a string or absent.
- `cps` must be positive. A `cps` of 0 gives an infinite duration in JavaScript.
- The key order of a note-keyed bank is taken as given. JavaScript's `Object.keys` ordering, which puts integer-like keys first, is not modelled.
- An empty array bank, or an index that is not numeric, is modelled as a selection error (`NoSampleAt`). In the source the URL is `undefined` and is passed on to `loadBuffer`; sampler.mjs is not part of this model, and the model assumes that loading `undefined` fails.
- The `!s` check at line 195 is never reached: the sample path is only taken when `s` is truthy.
- The `sf` control (line 138) is destructured but never used.
- The controls flagged as TODO in the source (vowel, delay, nudge, unit, cut, loop) do not exist in the code and are not modelled.
- SampleBank.NearestIsFirstNearest: the first-nearest property is proved only when no candidate key is the empty string. An empty key is falsy, so the `reduce` treats it as "nothing chosen yet" and replaces it whatever its distance. `Nearest` models that behaviour exactly.
- SampleBank.NoteSelection: also stated under the same assumption of no empty keys, and for non-empty URL lists under every candidate key.
- Soundfont.SoundfontKey: the font list always has an instrument-name list. A list missing `instrumentNames`, where `indexOf` gives `undefined`, is not modelled.
- Trigger.Out: the whole handler runs inside a `try` whose `catch` only logs (lines 272-274). The model assumes the steps outside the inner `try` (lines 202-213) cannot throw: `toMidi` and `fromMidi` are total functions, although `toMidi` at line 172 may throw on a malformed note name, and the soundfont list is well-formed, although `getSoundfontKey` throws at line 66 when it has no `instruments`. Those events are dropped by the outer `catch` in the source and are not modelled.
- `getLoadedSamples()` (line 78) is neither imported nor defined in this file. The model assumes it returns the registry of loaded banks, given as `World.samples`.
- SampleBank.Select: uses the corrected index wrap-around (`SampleBank.Pick`) for array banks and for the URL lists under note keys. For a negative index whose magnitude is not a multiple of the bank length, the code as written reads `undefined` (lines 91 and 105), so no sample can be loaded, whereas the model plays the wrapped URL. See "## Findings".
- SampleBank.PickVal: the corrected indexing, as for `SampleBank.Select`; `SampleBank.PickAsWritten` states the code as written.
- SampleBank.ArraySelection: the URL stated is the corrected one; it agrees with the code as written only for a non-negative index.
- SampleBank.NoteSelection: the URL stated is the corrected one, as for `SampleBank.ArraySelection`.
- SampleBank.NoteChoice: the URL under the chosen key is the corrected one; for a negative index whose magnitude is not a multiple of that key's number of URLs, line 105 as written reads `undefined`.

## Findings

| source | as written | input that shows it | evidently intended | confidence | as-written member | corrected member |
|---|---|---|---|---|---|---|
| packages/webaudio/webaudio.mjs:91 | `bank[n % bank.length]` uses JavaScript's `%`, which keeps the sign of `n`, so a negative index reads a negative position and gets `undefined` (line 105 repeats the pattern) | `n = -1` with bank `["a", "b", "c"]`: `-1 % 3` is `-1`, and `bank[-1]` is `undefined` | wrap around in both directions, so that index -1 picks the last sample (`"c"`) | medium, not executed | SampleBank.PickAsWritten (exhibited by SampleBank.NegativeIndexMissesAsWritten) | SampleBank.Pick (proved periodic by SampleBank.PickWraps; used by SampleBank.PickVal and SampleBank.Select) |

=== FILE: chain.dfy ===
/** The chain of audio stages one event is rendered through, and how it
    is wired: each stage feeds the next, from the source to the output. */
module Chain {
  import opened JsValues
  import opened Envelope

  datatype FilterKind = Lowpass | Highpass | Bandpass

  /** Where a buffer source's audio comes from: a sample URL with its
      repitch in semitones, or a soundfont instrument key (whose repitch
      the soundfont package chooses). */
  datatype Origin = Sample(url: string, transpose: int) | Font(key: string)

  /** One audio stage, as the parameters scheduled on it. */
  datatype Stage =
      /** A synth tone playing from `start` until `stop`. */
    | Oscillator(wave: string, freq: real, start: real, stop: real)
      /** Sample playback starting at `start`, `offset` seconds into the
          buffer, with the playback rate multiplied by `speed`; `playFor`
          is the duration passed to `start` (absent for soundfonts and
          clipped samples); it stops at `stop`. */
    | BufferSource(origin: Origin, speed: real, offset: real, playFor: Option<real>,
                   start: real, stop: real)
      /** The fixed level-down of synth tones. */
    | Attenuator(level: real)
      /** A gain that starts at `initial` and follows the breakpoints. */
    | EnvelopeGain(initial: real, points: seq<Breakpoint>)
      /** The event's gain, scaled by its velocity. */
    | MasterGain(level: real)
    | Filter(kind: FilterKind, freq: real, q: real)
      /** Stereo position from -1 (left) to 1 (right). */
    | Panner(pan: real)
    | Destination

  predicate IsSource(st: Stage) {
    st.Oscillator? || st.BufferSource?
  }

  /** The place of each kind of stage in the fixed chain order. */
  function Rank(st: Stage): (r: nat)
    ensures r == 0 <==> IsSource(st)
    ensures r == 8 <==> st.Destination?
  {
    match st
    case Oscillator(_, _, _, _) => 0
    case BufferSource(_, _, _, _, _, _) => 0
    case Attenuator(_) => 1
    case EnvelopeGain(_, _) => 2
    case MasterGain(_) => 3
    case Filter(kind, _, _) => (match kind case Lowpass => 4 case Highpass => 5 case Bandpass => 6)
    case Panner(_) => 7
    case Destination => 8
  }

  /** Stages appear in the fixed order, each kind at most once. */
  ghost predicate Ordered(c: seq<Stage>) {
    forall i, j :: 0 <= i < j < |c| ==> Rank(c[i]) < Rank(c[j])
  }

  /** Every stage of `c` ranks at least `m`. */
  ghost predicate RanksFrom(c: seq<Stage>, m: nat) {
    forall i :: 0 <= i < |c| ==> Rank(c[i]) >= m
  }

  /** A complete chain: a source first, the output last, the fixed order
      in between. */
  ghost predicate Linear(c: seq<Stage>) {
    && |c| >= 2
    && IsSource(c[0])
    && c[|c| - 1] == Destination
    && Ordered(c)
  }

  /** In a complete chain the source and the output each occur once. */
  lemma LinearHasOneSourceAndOneOutput(c: seq<Stage>)
    requires Linear(c)
    ensures forall i :: 0 < i < |c| ==> !IsSource(c[i])
    ensures forall i :: 0 <= i < |c| - 1 ==> c[i] != Destination
  {
    forall i | 0 < i < |c|
      ensures !IsSource(c[i])
    {
      assert Rank(c[0]) < Rank(c[i]);
    }
    forall i | 0 <= i < |c| - 1
      ensures c[i] != Destination
    {
      assert Rank(c[i]) < Rank(c[|c| - 1]);
    }
  }

  /** Joining two ordered pieces, the first ranked below `m` and the
      second from `m` on, keeps the order. */
  lemma AppendOrdered(a: seq<Stage>, b: seq<Stage>, m: nat)
    requires Ordered(a) && Ordered(b)
    requires forall i :: 0 <= i < |a| ==> Rank(a[i]) < m
    requires RanksFrom(b, m)
    ensures Ordered(a + b)
  {
    var c := a + b;
    forall i, j | 0 <= i < j < |c|
      ensures Rank(c[i]) < Rank(c[j])
    {
      if j < |a| {
        assert c[i] == a[i] && c[j] == a[j];
      } else if i >= |a| {
        assert c[i] == b[i - |a|] && c[j] == b[j - |a|];
      } else {
        assert c[i] == a[i] && c[j] == b[j - |a|];
      }
    }
  }

  /** A stage when its setting is present, nothing otherwise. */
  function Optional(o: Option<Stage>): (c: seq<Stage>)
    ensures |c| <= 1
    ensures o.Some? <==> |c| == 1
    ensures o.Some? ==> c[0] == o.value
  {
    if o.Some? then [o.value] else []
  }

  /** `getFilter(kind, freq, q)`, added only when the frequency is set. */
  function FilterStage(kind: FilterKind, freq: Option<real>, q: real): (o: Option<Stage>)
    ensures o.Some? <==> freq.Some?
    ensures o.Some? ==> o.value == Filter(kind, freq.value, q)
  {
    if freq.Some? then Some(Filter(kind, freq.value, q)) else None
  }

  /** The panner for a pan value in [0, 1], mapped to [-1, 1]. */
  function PanStage(pan: Option<real>): (o: Option<Stage>)
    ensures o.Some? <==> pan.Some?
    ensures o.Some? ==> o.value.Panner? && (o.value.pan + 1.0) / 2.0 == pan.value
  {
    if pan.Some? then Some(Panner(2.0 * pan.value - 1.0)) else None
  }

  /** The stages that are present, in order. */
  function Present(opts: seq<Option<Stage>>): (c: seq<Stage>)
    ensures |c| <= |opts|
    ensures |opts| > 0 && opts[0].Some? ==> |c| > 0 && c[0] == opts[0].value
    ensures |opts| > 0 && opts[|opts| - 1].Some? ==> |c| > 0 && c[|c| - 1] == opts[|opts| - 1].value
    decreases |opts|
  {
    if |opts| == 0 then []
    else Optional(opts[0]) + Present(opts[1..])
  }

  /** A stage is among the present ones exactly when some slot holds it. */
  lemma {:induction false} PresentMembers(opts: seq<Option<Stage>>)
    ensures forall st :: st in Present(opts) <==> Some(st) in opts
    decreases |opts|
  {
    if |opts| > 0 {
      PresentMembers(opts[1..]);
      assert forall o :: o in opts <==> o == opts[0] || o in opts[1..];
    }
  }

  /** Each present stage at position `i` has rank `base + i`. */
  ghost predicate RankedFrom(opts: seq<Option<Stage>>, base: nat) {
    forall i :: 0 <= i < |opts| && opts[i].Some? ==> Rank(opts[i].value) == base + i
  }

  /** Slots ranked in increasing order give an ordered chain. */
  lemma {:induction false} PresentOrdered(opts: seq<Option<Stage>>, base: nat)
    requires RankedFrom(opts, base)
    ensures Ordered(Present(opts)) && RanksFrom(Present(opts), base)
    decreases |opts|
  {
    if |opts| > 0 {
      var rest := opts[1..];
      assert RankedFrom(rest, base + 1) by {
        forall i | 0 <= i < |rest| && rest[i].Some?
          ensures Rank(rest[i].value) == base + 1 + i
        {
          assert rest[i] == opts[i + 1];
        }
      }
      PresentOrdered(rest, base + 1);
      AppendOrdered(Optional(opts[0]), Present(rest), base + 1);
    }
  }

  /** The optional slots of every event's chain after its voice, in
      order: the master gain, the three filters, the panner, the output. */
  function TailSlots(master: real, cutoff: Option<real>, resonance: real,
                     hcutoff: Option<real>, hresonance: real,
                     bandf: Option<real>, bandq: real, pan: Option<real>): (slots: seq<Option<Stage>>)
    ensures |slots| == 6 && RankedFrom(slots, 3)
    ensures slots[0] == Some(MasterGain(master)) && slots[5] == Some(Destination)
    ensures slots[1].Some? <==> cutoff.Some?
    ensures slots[2].Some? <==> hcutoff.Some?
    ensures slots[3].Some? <==> bandf.Some?
    ensures slots[4].Some? <==> pan.Some?
  {
    [ Some(MasterGain(master)),
      FilterStage(Lowpass, cutoff, resonance),
      FilterStage(Highpass, hcutoff, hresonance),
      FilterStage(Bandpass, bandf, bandq),
      PanStage(pan),
      Some(Destination) ]
  }

  /** What every event's chain ends with: the master gain, the filters
      that are set (lowpass, highpass, bandpass), the panner if a pan is
      set, and the output. */
  function Tail(master: real, cutoff: Option<real>, resonance: real,
                hcutoff: Option<real>, hresonance: real,
                bandf: Option<real>, bandq: real, pan: Option<real>): (tail: seq<Stage>)
    ensures |tail| >= 2
    ensures tail[0] == MasterGain(master) && tail[|tail| - 1] == Destination
    ensures Ordered(tail) && RanksFrom(tail, 3)
    ensures tail == Present(TailSlots(master, cutoff, resonance, hcutoff, hresonance, bandf, bandq, pan))
  {
    var slots := TailSlots(master, cutoff, resonance, hcutoff, hresonance, bandf, bandq, pan);
    PresentOrdered(slots, 3);
    var tail := Present(slots);
    assert tail[0] == MasterGain(master);
    assert tail[|tail| - 1] == Destination;
    assert tail[0] != tail[|tail| - 1];
    tail
  }

  /** `chain.slice(1).reduce((last, current) => last.connect(current), chain[0])`:
      `connect` returns the stage it connects to, so each stage is wired to
      the one after it, and nothing else is wired. */
  method Connect(chain: seq<Stage>) returns (edges: seq<(Stage, Stage)>)
    ensures |chain| == 0 ==> edges == []
    ensures |chain| > 0 ==> |edges| == |chain| - 1
    ensures forall i :: 0 <= i < |edges| ==> edges[i] == (chain[i], chain[i + 1])
  {
    edges := [];
    if |chain| == 0 {
      return;
    }
    var last := chain[0];
    var k := 1;
    while k < |chain|
      invariant 1 <= k <= |chain|
      invariant last == chain[k - 1]
      invariant |edges| == k - 1
      invariant forall i :: 0 <= i < |edges| ==> edges[i] == (chain[i], chain[i + 1])
    {
      edges := edges + [(last, chain[k])];
      last := chain[k];
      k := k + 1;
    }
  }
}

=== FILE: envelope.dfy ===
/** `getADSR`: the gain schedule of an attack-decay-sustain-release
    envelope, as the automation events it places on a gain parameter. */
module Envelope {

  /** How a gain parameter reaches a breakpoint: jumping to it at that
      time (`setValueAtTime`) or ramping linearly to it from the previous
      breakpoint (`linearRampToValueAtTime`). */
  datatype Shape = Jump | Ramp

  /** One automation event: the level reached at an absolute time. */
  datatype Breakpoint = Breakpoint(time: real, level: real, shape: Shape)

  /** The five events `getADSR` schedules. Ramps are linear; the source
      notes that exponential ramps crackled. */
  function ADSR(attack: real, decay: real, sustain: real, release: real,
                velocity: real, begin: real, end: real): (pts: seq<Breakpoint>)
    ensures |pts| == 5
    ensures pts[0] == Breakpoint(begin, 0.0, Jump)
    ensures pts[4] == Breakpoint(end + release, 0.0, Ramp)
    ensures pts[1].level == velocity && pts[1].shape == Ramp && pts[1].time - pts[0].time == attack
    ensures pts[2] == Breakpoint(begin + attack + decay, sustain * velocity, Ramp)
    ensures pts[3] == Breakpoint(end, sustain * velocity, Jump)
    ensures pts[2].time - pts[1].time == decay
  {
    [ Breakpoint(begin, 0.0, Jump),
      Breakpoint(begin + attack, velocity, Ramp),
      Breakpoint(begin + attack + decay, sustain * velocity, Ramp),
      Breakpoint(end, sustain * velocity, Jump),
      Breakpoint(end + release, 0.0, Ramp) ]
  }

  /** With `0 <= sustain <= 1` and `velocity >= 0` the levels rise to the
      peak, fall to the sustain level, hold it, and fall to silence;
      strictly so at the release when the sustain level is positive. The
      peak is the largest level and silence the smallest. */
  lemma AdsrShape(attack: real, decay: real, sustain: real, release: real,
                  velocity: real, begin: real, end: real)
    requires 0.0 <= sustain <= 1.0 && velocity >= 0.0
    ensures var pts := ADSR(attack, decay, sustain, release, velocity, begin, end);
            && pts[0].level <= pts[1].level
            && pts[1].level >= pts[2].level
            && pts[2].level == pts[3].level
            && pts[3].level >= pts[4].level == 0.0
            && (sustain > 0.0 && velocity > 0.0 ==> pts[3].level > pts[4].level)
            && (forall i :: 0 <= i < 5 ==> 0.0 <= pts[i].level <= pts[1].level)
  {
    var pts := ADSR(attack, decay, sustain, release, velocity, begin, end);
    assert sustain * velocity <= 1.0 * velocity;
    assert sustain * velocity >= 0.0;
  }

  /** With non-negative stage lengths and a sustain end no earlier than
      the decay's end, the breakpoints are in time order. */
  lemma AdsrTimesOrdered(attack: real, decay: real, sustain: real, release: real,
                         velocity: real, begin: real, end: real)
    requires attack >= 0.0 && decay >= 0.0 && release >= 0.0
    requires end >= begin + attack + decay
    ensures var pts := ADSR(attack, decay, sustain, release, velocity, begin, end);
            forall i, j :: 0 <= i <= j < 5 ==> pts[i].time <= pts[j].time
  {
  }
}

=== FILE: out_properties.dfy ===
/** What `out` promises for every hap: the shape of the chain it builds,
    the synth and sample voices' timing, and when an event is dropped. */
module OutProperties {
  import opened JsValues
  import opened SampleBank
  import opened Soundfont
  import opened Envelope
  import opened Chain
  import opened Trigger

  /** Every chain `out` builds is linear: one source first, the output
      last, the stages in the fixed order (voice stages, master gain,
      lowpass, highpass, bandpass, panner, output), each at most once; the
      master gain is `gain * velocity`. */
  lemma OutChainIsLinear(hap: Hap, t: real, ct: real, cps: real, w: World)
    requires cps > 0.0
    ensures var r := Out(hap, t, ct, cps, w);
            r.Played? ==> Linear(r.chain) && MasterGain(MasterLevel(hap)) in r.chain
  {
    var v := Voice(hap, t, ct, cps, w);
    if v.Ok? {
      AppendOrdered(v.value, HapTail(hap), 3);
    }
  }

  /** A stage ranked from 3 on is in a voice followed by the hap's tail
      exactly when it is one of the tail's present slots. */
  lemma InChainIffSlot(voice: seq<Stage>, hap: Hap, st: Stage)
    requires forall i :: 0 <= i < |voice| ==> Rank(voice[i]) < 3
    requires Rank(st) >= 3
    ensures var v := hap.value;
            st in voice + HapTail(hap) <==>
              Some(st) in TailSlots(MasterLevel(hap), v.cutoff, OrElse(v.resonance, 1.0),
                                    v.hcutoff, OrElse(v.hresonance, 1.0),
                                    v.bandf, OrElse(v.bandq, 1.0), v.pan)
  {
    var v := hap.value;
    PresentMembers(TailSlots(MasterLevel(hap), v.cutoff, OrElse(v.resonance, 1.0),
                             v.hcutoff, OrElse(v.hresonance, 1.0),
                             v.bandf, OrElse(v.bandq, 1.0), v.pan));
    assert forall i :: 0 <= i < |voice| ==> voice[i] != st;
  }

  /** The frequency control and resonance (default 1) of each filter:
      `cutoff`/`resonance`, `hcutoff`/`hresonance`, `bandf`/`bandq`. */
  function FilterControl(v: Controls, kind: FilterKind): (Option<real>, real) {
    match kind
    case Lowpass => (v.cutoff, OrElse(v.resonance, 1.0))
    case Highpass => (v.hcutoff, OrElse(v.hresonance, 1.0))
    case Bandpass => (v.bandf, OrElse(v.bandq, 1.0))
  }

  /** A filter of each kind is in a voice followed by the hap's tail
      exactly when its frequency control is set, with that frequency and
      its resonance. */
  lemma ChainFilter(voice: seq<Stage>, hap: Hap, kind: FilterKind)
    requires forall i :: 0 <= i < |voice| ==> Rank(voice[i]) < 3
    ensures var (freq, q) := FilterControl(hap.value, kind);
            forall f, r :: Filter(kind, f, r) in voice + HapTail(hap) <==> freq == Some(f) && r == q
  {
    var (freq, q) := FilterControl(hap.value, kind);
    forall f, r
      ensures Filter(kind, f, r) in voice + HapTail(hap) <==> freq == Some(f) && r == q
    {
      InChainIffSlot(voice, hap, Filter(kind, f, r));
    }
  }

  /** The panner is in a voice followed by the hap's tail exactly when a
      pan is set, at `2 * pan - 1`; the master gain is `gain * velocity`. */
  lemma ChainPanAndGain(voice: seq<Stage>, hap: Hap)
    requires forall i :: 0 <= i < |voice| ==> Rank(voice[i]) < 3
    ensures var c := voice + HapTail(hap);
            var v := hap.value;
            && (forall p :: Panner(p) in c <==> v.pan.Some? && p == 2.0 * v.pan.value - 1.0)
            && (forall g :: MasterGain(g) in c <==> g == MasterLevel(hap))
  {
    var c := voice + HapTail(hap);
    forall p
      ensures Panner(p) in c <==> hap.value.pan.Some? && p == 2.0 * hap.value.pan.value - 1.0
    {
      InChainIffSlot(voice, hap, Panner(p));
    }
    forall g
      ensures MasterGain(g) in c <==> g == MasterLevel(hap)
    {
      InChainIffSlot(voice, hap, MasterGain(g));
    }
  }

  /** The filters, panner and master gain of every chain `out` builds
      follow the hap's controls, as `ChainFilter` and `ChainPanAndGain`
      state for any voice. */
  lemma OutFollowsControls(hap: Hap, t: real, ct: real, cps: real, w: World)
    requires cps > 0.0
    requires Out(hap, t, ct, cps, w).Played?
    ensures var c := Out(hap, t, ct, cps, w).chain;
            var v := hap.value;
            && (forall kind, f, r :: Filter(kind, f, r) in c <==>
                  FilterControl(v, kind).0 == Some(f) && r == FilterControl(v, kind).1)
            && (forall p :: Panner(p) in c <==> v.pan.Some? && p == 2.0 * v.pan.value - 1.0)
            && (forall g :: MasterGain(g) in c <==> g == MasterLevel(hap))
  {
    var voice := Voice(hap, t, ct, cps, w).value;
    var c := voice + HapTail(hap);
    assert Out(hap, t, ct, cps, w).chain == c;
    forall kind, f, r
      ensures Filter(kind, f, r) in c <==>
                FilterControl(hap.value, kind).0 == Some(f) && r == FilterControl(hap.value, kind).1
    {
      ChainFilter(voice, hap, kind);
    }
    ChainPanAndGain(voice, hap);
  }

  /** In the synth path the chain is the synth voice followed by the
      hap's tail. */
  lemma SynthPathPlays(hap: Hap, t: real, ct: real, cps: real, w: World)
    requires cps > 0.0
    requires IsSynth(Names(hap.value).0)
    ensures var (s, n, note) := Names(hap.value);
            Out(hap, t, ct, cps, w)
            == Played(SynthVoice(s, n, note, hap.value, AlignedTime(t, ct, w), hap.duration / cps, w)
                      + HapTail(hap))
  {
  }

  /** The synth voice: an oscillator whose type is the sound name, or
      `"triangle"` when there is none, starting at the onset and stopping
      exactly when the ADSR envelope (velocity 1, anchored at the onset
      and the hap's end) reaches silence; then the 0.3 level-down, then
      that envelope. */
  lemma SynthVoiceShape(s: Option<string>, n: Val, note: Option<Val>, v: Controls,
                        start: real, dur: real, w: World)
    requires IsSynth(s)
    ensures var c := SynthVoice(s, n, note, v, start, dur, w);
            && c[0].wave in Waveforms
            && (s.None? || s.value == "" ==> c[0].wave == "triangle")
            && (s.Some? && s.value != "" ==> c[0].wave == s.value)
            && c[0].start == start
            && c[1] == Attenuator(SynthLevel)
            && c[2] == EnvelopeGain(UnityGain,
                 ADSR(OrElse(v.attack, 0.001), OrElse(v.decay, 0.05), OrElse(v.sustain, 0.5),
                      OrElse(v.release, 0.001), 1.0, start, start + dur))
            && c[0].stop == c[2].points[4].time
  {
  }

  /** A synth event always plays, and its chain starts with the synth
      voice `SynthVoiceShape` describes, at the aligned onset for the
      hap's duration in seconds. */
  lemma SynthPlaysOscillator(hap: Hap, t: real, ct: real, cps: real, w: World)
    requires cps > 0.0
    requires IsSynth(Names(hap.value).0)
    ensures var r := Out(hap, t, ct, cps, w);
            var (s, n, note) := Names(hap.value);
            var start := AlignedTime(t, ct, w);
            && r.Played?
            && r.chain[..3] == SynthVoice(s, n, note, hap.value, start, hap.duration / cps, w)
  {
    SynthPathPlays(hap, t, ct, cps, w);
    var (s, n, note) := Names(hap.value);
    var voice := SynthVoice(s, n, note, hap.value, AlignedTime(t, ct, w), hap.duration / cps, w);
    assert (voice + HapTail(hap))[..3] == voice;
  }

  /** The synth's frequency: `freq` when truthy, otherwise `fromMidi` of
      the note (or, with no truthy note, the index), read through
      `toMidi` when it is a string. */
  lemma SynthFrequency(hap: Hap, t: real, ct: real, cps: real, w: World)
    requires cps > 0.0
    requires IsSynth(Names(hap.value).0)
    ensures var r := Out(hap, t, ct, cps, w);
            var (_, n, note) := Names(hap.value);
            && (TruthyNum(hap.value.freq) ==> r.chain[0].freq == hap.value.freq.value)
            && (!TruthyNum(hap.value.freq) && TruthyOpt(note) && note.value.Text? ==>
                  r.chain[0].freq == w.fromMidi(w.toMidi(note.value)))
            && (!TruthyNum(hap.value.freq) && TruthyOpt(note) && note.value.Num? ==>
                  r.chain[0].freq == w.fromMidi(note.value.i))
            && (!TruthyNum(hap.value.freq) && !TruthyOpt(note) && n.Num? ==>
                  r.chain[0].freq == w.fromMidi(n.i))
            && (!TruthyNum(hap.value.freq) && !TruthyOpt(note) && n.Text? ==>
                  r.chain[0].freq == w.fromMidi(w.toMidi(n)))
  {
    SynthPathPlays(hap, t, ct, cps, w);
    var (s, n, note) := Names(hap.value);
    var voice := SynthVoice(s, n, note, hap.value, AlignedTime(t, ct, w), hap.duration / cps, w);
    assert (voice + HapTail(hap))[0] == voice[0];
  }

  /** A sample event with speed 0 is dropped before anything is loaded,
      and that is the only way to get this outcome; a synth event ignores
      the speed. */
  lemma ZeroSpeedDrops(hap: Hap, t: real, ct: real, cps: real, w: World)
    requires cps > 0.0
    ensures Out(hap, t, ct, cps, w) == Dropped(ZeroSpeed) <==>
              !IsSynth(Names(hap.value).0) && OrElse(hap.value.speed, 1.0) == 0.0
  {
  }

  /** Only the sample path can drop an event. */
  lemma SynthNeverDropped(hap: Hap, t: real, ct: real, cps: real, w: World)
    requires cps > 0.0
    ensures Out(hap, t, ct, cps, w).Dropped? ==> !IsSynth(Names(hap.value).0)
  {
  }

  /** A resolution failure drops the event: exactly when the speed is
      non-zero and resolving the buffer failed, and the reason is the
      failure. */
  lemma ResolutionFailureDrops(hap: Hap, t: real, ct: real, cps: real, w: World)
    requires cps > 0.0
    requires !IsSynth(Names(hap.value).0)
    ensures var (s, n, note) := Names(hap.value);
            var r := Out(hap, t, ct, cps, w);
            (r.Dropped? && r.why.ResolveFailed?) <==>
              (OrElse(hap.value.speed, 1.0) != 0.0 && Resolve(s.value, n, note, w).Err?)
    ensures var (s, n, note) := Names(hap.value);
            var r := Out(hap, t, ct, cps, w);
            r.Dropped? && r.why.ResolveFailed? ==> Resolve(s.value, n, note, w) == Err(r.why.cause)
  {
  }

  /** The missed deadline: once resolution succeeded, an event is dropped
      as still loading exactly when the clock read after loading is past
      the aligned onset; a synth event is never checked. */
  lemma DeadlineMissDrops(hap: Hap, t: real, ct: real, cps: real, w: World)
    requires cps > 0.0
    ensures var (s, n, note) := Names(hap.value);
            Out(hap, t, ct, cps, w) == Dropped(StillLoading) <==>
              && !IsSynth(s)
              && OrElse(hap.value.speed, 1.0) != 0.0
              && Resolve(s.value, n, note, w).Ok?
              && w.timeAfterLoad > AlignedTime(t, ct, w)
  {
  }

  /** A soundfont that returns no buffer source drops the event (if the
      deadline was met); a resolved sample always has a source. */
  lemma MissingSourceDrops(hap: Hap, t: real, ct: real, cps: real, w: World)
    requires cps > 0.0
    ensures var (s, n, note) := Names(hap.value);
            Out(hap, t, ct, cps, w) == Dropped(NoBufferSource) <==>
              && !IsSynth(s)
              && OrElse(hap.value.speed, 1.0) != 0.0
              && SoundfontKey(w.fonts, s.value).Some?
              && Resolve(s.value, n, note, w) == Ok(FontSource(SoundfontKey(w.fonts, s.value).value, false))
              && w.timeAfterLoad <= AlignedTime(t, ct, w)
  {
  }

  /** In the sample path a played chain is the resolved source's
      playback followed by the hap's tail. */
  lemma SamplePathPlays(hap: Hap, t: real, ct: real, cps: real, w: World)
    requires cps > 0.0
    requires !IsSynth(Names(hap.value).0)
    requires var (s, n, note) := Names(hap.value);
             SampleVoice(s.value, n, note, hap.value, AlignedTime(t, ct, w), hap.duration / cps, w).Ok?
    ensures var (s, n, note) := Names(hap.value);
            && Resolve(s.value, n, note, w).Ok?
            && OrElse(hap.value.speed, 1.0) != 0.0
            && Out(hap, t, ct, cps, w).chain
               == Playback(Resolve(s.value, n, note, w).value, hap.value,
                           AlignedTime(t, ct, w), hap.duration / cps) + HapTail(hap)
  {
  }

  /** The sample voice's timing: it starts at the given onset, `begin`
      of the base duration into the buffer, and plays the trimmed span
      `(end - begin) * base` at `|speed|` times the rate, so that the
      played time times `|speed|` recovers the span. A plain sample stops
      when that time is up; a soundfont or clipped sample holds 0.6 until
      then, fades to 0 over 0.1 s, and stops when the fade ends. */
  lemma PlaybackTiming(src: Source, v: Controls, start: real, dur: real)
    requires OrElse(v.speed, 1.0) != 0.0
    ensures var speed := AbsReal(OrElse(v.speed, 1.0));
            var base := BaseDuration(src, v.clip, dur);
            var span := (OrElse(v.end, 1.0) - OrElse(v.begin, 0.0)) * base;
            var c := Playback(src, v, start, dur);
            && speed > 0.0
            && c[0].BufferSource?
            && c[0].start == start
            && c[0].speed == speed
            && c[0].offset == OrElse(v.begin, 0.0) * base
            && (!Clipped(src, v.clip) ==>
                  && |c| == 1
                  && c[0].playFor.Some?
                  && c[0].playFor.value * speed == span
                  && c[0].stop == start + c[0].playFor.value)
            && (Clipped(src, v.clip) ==>
                  && |c| == 2
                  && c[0].playFor.None?
                  && c[1].EnvelopeGain?
                  && c[1].initial == FadeLevel
                  && |c[1].points| == 2
                  && (c[1].points[0].time - start) * speed == span
                  && c[1].points[0].level == FadeLevel
                  && c[1].points[1] == Breakpoint(c[1].points[0].time + ReleaseLength, 0.0, Ramp)
                  && c[0].stop == c[1].points[1].time)
  {
    var speed := AbsReal(OrElse(v.speed, 1.0));
    var base := BaseDuration(src, v.clip, dur);
    var span := (OrElse(v.end, 1.0) - OrElse(v.begin, 0.0)) * base;
    var playFor := span / speed;
    assert playFor * speed == span;
  }

  /** The sample's origin: the chosen URL and repitch from sample
      selection, or the soundfont key. */
  lemma SampleOrigin(hap: Hap, t: real, ct: real, cps: real, w: World)
    requires cps > 0.0
    requires !IsSynth(Names(hap.value).0)
    requires var (s, n, note) := Names(hap.value);
             SampleVoice(s.value, n, note, hap.value, AlignedTime(t, ct, w), hap.duration / cps, w).Ok?
    ensures var (s, n, note) := Names(hap.value);
            var c := Out(hap, t, ct, cps, w).chain;
            && (SoundfontKey(w.fonts, s.value).Some? ==> c[0].origin == Font(SoundfontKey(w.fonts, s.value).value))
            && (SoundfontKey(w.fonts, s.value).None? ==>
                  var choice := Select(w.samples, s.value, n, note, w.toMidi).value;
                  c[0].origin == Sample(choice.url, choice.transpose))
  {
  }

  /** An unclipped sample with default trim and speed plays its whole
      buffer, `d` seconds, from the onset at the original rate. */
  lemma UntrimmedPlayback(choice: Choice, d: real, v: Controls, start: real, dur: real)
    requires v.speed.None? && v.begin.None? && v.end.None? && v.clip.None?
    ensures Playback(SampleSource(choice, d), v, start, dur)
            == [BufferSource(Sample(choice.url, choice.transpose), 1.0, 0.0, Some(d), start, start + d)]
  {
    var src := SampleSource(choice, d);
    assert !Clipped(src, v.clip);
    assert BaseDuration(src, v.clip, dur) == d;
    assert (1.0 - 0.0) * d / 1.0 == d;
    var c := Playback(src, v, start, dur);
    assert c[0].playFor.Some? && c[0].playFor.value == d;
  }

  /** With no soundfonts, the bank `bd: ["x.wav"]` and that file loaded,
      `bd` with index 0 resolves to the file at its own pitch. */
  lemma PlainResolves(w: World, d: real)
    requires w.fonts.None?
    requires w.samples == Some(map["bd" := Urls(["x.wav"])])
    requires w.loadBuffer("x.wav") == Some(d)
    ensures Resolve("bd", Num(0), None, w) == Ok(SampleSource(Choice("x.wav", 0), d))
  {
    assert PickVal(["x.wav"], Num(0)) == Some("x.wav");
    assert Select(w.samples, "bd", Num(0), None, w.toMidi) == Ok(Choice("x.wav", 0));
  }

  /** A plain sample event `{s: "bd"}` with the bank `bd: ["x.wav"]`,
      default index, trim and speed, loaded in time, plays the whole
      buffer from its onset at the original pitch and rate. */
  lemma PlainSampleVoice(hap: Hap, t: real, ct: real, cps: real, w: World, d: real)
    requires cps > 0.0
    requires hap.value.s == Some("bd") && hap.value.n.None? && hap.value.note.None?
    requires hap.value.speed.None? && hap.value.begin.None? && hap.value.end.None? && hap.value.clip.None?
    requires w.fonts.None?
    requires w.samples == Some(map["bd" := Urls(["x.wav"])])
    requires w.loadBuffer("x.wav") == Some(d)
    requires w.timeAfterLoad <= AlignedTime(t, ct, w)
    ensures var start := AlignedTime(t, ct, w);
            Out(hap, t, ct, cps, w)
            == Played([BufferSource(Sample("x.wav", 0), 1.0, 0.0, Some(d), start, start + d)] + HapTail(hap))
  {
    var v := hap.value;
    var start := AlignedTime(t, ct, w);
    assert Names(v) == (Some("bd"), Num(0), None);
    PlainResolves(w, d);
    var src := SampleSource(Choice("x.wav", 0), d);
    UntrimmedPlayback(Choice("x.wav", 0), d, v, start, hap.duration / cps);
    ReadySourcePlays("bd", Num(0), None, v, start, hap.duration / cps, w, src);
    SampleEventPlays(hap, t, ct, cps, w);
  }

  /** With no gain, velocity, filters or pan as well, that buffer goes
      at unit gain straight into the output. */
  lemma PlainSampleScenario(hap: Hap, t: real, ct: real, cps: real, w: World, d: real)
    requires cps > 0.0
    requires hap.value.s == Some("bd") && hap.value.n.None? && hap.value.note.None?
    requires hap.value.speed.None? && hap.value.begin.None? && hap.value.end.None? && hap.value.clip.None?
    requires hap.velocity.None? && hap.value.gain.None? && hap.value.pan.None?
    requires hap.value.cutoff.None? && hap.value.hcutoff.None? && hap.value.bandf.None?
    requires w.fonts.None?
    requires w.samples == Some(map["bd" := Urls(["x.wav"])])
    requires w.loadBuffer("x.wav") == Some(d)
    requires w.timeAfterLoad <= AlignedTime(t, ct, w)
    ensures var start := AlignedTime(t, ct, w);
            Out(hap, t, ct, cps, w)
            == Played([ BufferSource(Sample("x.wav", 0), 1.0, 0.0, Some(d), start, start + d),
                        MasterGain(1.0), Destination ])
  {
    var start := AlignedTime(t, ct, w);
    var x := BufferSource(Sample("x.wav", 0), 1.0, 0.0, Some(d), start, start + d);
    PlainSampleVoice(hap, t, ct, cps, w, d);
    BareTail(hap);
    assert [x] + HapTail(hap) == [x, MasterGain(1.0), Destination];
  }

  /** A resolved source that is ready in time and present is played. */
  lemma ReadySourcePlays(s: string, n: Val, note: Option<Val>, v: Controls,
                         start: real, dur: real, w: World, src: Source)
    requires OrElse(v.speed, 1.0) != 0.0
    requires Resolve(s, n, note, w) == Ok(src)
    requires w.timeAfterLoad <= start
    requires src.SampleSource? || src.present
    ensures SampleVoice(s, n, note, v, start, dur, w) == Ok(Playback(src, v, start, dur))
  {
  }

  /** An event on the sample path plays what its sample voice gives,
      followed by its tail. */
  lemma SampleEventPlays(hap: Hap, t: real, ct: real, cps: real, w: World)
    requires cps > 0.0
    requires !IsSynth(Names(hap.value).0)
    requires var (s, n, note) := Names(hap.value);
             SampleVoice(s.value, n, note, hap.value, AlignedTime(t, ct, w), hap.duration / cps, w).Ok?
    ensures var (s, n, note) := Names(hap.value);
            Out(hap, t, ct, cps, w)
            == Played(SampleVoice(s.value, n, note, hap.value, AlignedTime(t, ct, w), hap.duration / cps, w).value
                      + HapTail(hap))
  {
  }

  /** An empty slot contributes nothing. */
  lemma PresentSkipsEmpty(rest: seq<Option<Stage>>)
    ensures Present([None] + rest) == Present(rest)
  {
    assert ([None] + rest)[1..] == rest;
  }

  /** Only the first and the last slot filled: just those two stages. */
  lemma PresentEnds(a: Stage, b: Stage, opts: seq<Option<Stage>>)
    requires opts == [Some(a), None, None, None, None, Some(b)]
    ensures Present(opts) == [a, b]
  {
    var last := opts[5..];
    assert last[1..] == [];
    assert Present(last) == [b];
    PresentSkipsEmpty(opts[5..]);
    assert opts[4..] == [None] + opts[5..];
    PresentSkipsEmpty(opts[4..]);
    assert opts[3..] == [None] + opts[4..];
    PresentSkipsEmpty(opts[3..]);
    assert opts[2..] == [None] + opts[3..];
    PresentSkipsEmpty(opts[2..]);
    assert opts[1..] == [None] + opts[2..];
    assert Present(opts[1..]) == [b];
  }

  /** A hap with no gain, velocity, filters or pan ends in unit gain
      straight into the output. */
  lemma BareTail(hap: Hap)
    requires hap.velocity.None? && hap.value.gain.None? && hap.value.pan.None?
    requires hap.value.cutoff.None? && hap.value.hcutoff.None? && hap.value.bandf.None?
    ensures HapTail(hap) == [MasterGain(1.0), Destination]
  {
    var v := hap.value;
    var slots := TailSlots(1.0, None, OrElse(v.resonance, 1.0), None, OrElse(v.hresonance, 1.0),
                           None, OrElse(v.bandq, 1.0), None);
    assert slots == [Some(MasterGain(1.0)), None, None, None, None, Some(Destination)];
    PresentEnds(MasterGain(1.0), Destination, slots);
  }

  /** Wiring a complete chain connects each stage to the next: the
      source feeds the stage after it, each stage feeds the one the
      previous edge ended at, and the last edge ends at the output. */
  method WireLinear(c: seq<Stage>) returns (edges: seq<(Stage, Stage)>)
    requires Linear(c)
    ensures |edges| == |c| - 1
    ensures IsSource(edges[0].0)
    ensures edges[|edges| - 1].1 == Destination
    ensures forall i :: 0 <= i < |edges| - 1 ==> edges[i].1 == edges[i + 1].0
  {
    edges := Connect(c);
    assert edges[0] == (c[0], c[1]);
    assert edges[|edges| - 1] == (c[|c| - 2], c[|c| - 1]);
    forall i | 0 <= i < |edges| - 1
      ensures edges[i].1 == edges[i + 1].0
    {
      assert edges[i] == (c[i], c[i + 1]) && edges[i + 1] == (c[i + 1], c[i + 2]);
    }
  }
}

=== FILE: sample_bank.dfy ===
/** Sample-bank selection, the pure part of `getSampleBufferSource`:
    which URL of a loaded bank plays, and by how many semitones it is
    repitched. Loading the URL is left to the caller. */
module SampleBank {
  import opened JsValues

  /** A registry entry: an array of URLs chosen by index, an object
      mapping note names to arrays of URLs (in key order), a truthy value
      that is not an object (a non-empty string, a non-zero number,
      `true`), or a falsy value (`0`, `""`, `false`, `null`), which reads
      the same as a missing bank. */
  datatype Bank =
    | Urls(urls: seq<string>)
    | Notes(entries: seq<(string, seq<string>)>)
    | NotObject
    | Falsy

  /** Why no sample could be chosen; each is thrown inside
      `getSampleBufferSource` and caught by the caller. */
  datatype SelectError =
    | NoSamplesLoaded   // the registry itself is missing
    | SampleNotFound    // no bank of that name, or a falsy one
    | WrongFormat       // the bank is not an object
    | NoNote            // a note-keyed bank and no (truthy) note
    | NoCandidateKey    // every key starts with '_': nothing to compare
    | NoSampleAt        // the index does not land on an element

  /** The chosen sample: its URL and the repitch in semitones. */
  datatype Choice = Choice(url: string, transpose: int)

  // ---------------------------------------------------------------------
  // Index wrap-around

  /** JavaScript's `%`: the remainder takes the sign of the dividend. */
  function JsRemainder(n: int, d: int): (r: int)
    requires d != 0
    ensures Abs(r) < Abs(d)
    ensures n >= 0 ==> r >= 0
    ensures n < 0 ==> r <= 0
  {
    if n >= 0 then Abs(n) % Abs(d) else -(Abs(n) % Abs(d))
  }

  /** The remainder leaves a multiple of the divisor behind: it is the
      remainder of a division whose quotient is truncated toward zero. */
  lemma JsRemainderDivides(n: int, d: int)
    requires d != 0
    ensures (n - JsRemainder(n, d)) % Abs(d) == 0
  {
    var m: int, a: int := Abs(d), Abs(n);
    var q := a / m;
    if n >= 0 {
      assert n - JsRemainder(n, d) == q * m;
      ModUnique(n - JsRemainder(n, d), m, q, 0);
    } else {
      assert n - JsRemainder(n, d) == (-q) * m;
      ModUnique(n - JsRemainder(n, d), m, -q, 0);
    }
  }

  /** `urls[n % urls.length]` as written: `None` stands for the
      `undefined` read off the array when the remainder is negative or
      the array is empty (`n % 0` is `NaN`). */
  function PickAsWritten(urls: seq<string>, n: int): (r: Option<string>)
    ensures r.Some? ==> r.value in urls
    ensures |urls| == 0 ==> r.None?
    ensures |urls| > 0 && n >= 0 ==> r == Some(urls[n % |urls|])
    ensures |urls| > 0 && n < 0 ==> (r.None? <==> (-n) % |urls| != 0)
  {
    if |urls| == 0 then None
    else
      var k := JsRemainder(n, |urls|);
      if 0 <= k then Some(urls[k]) else None
  }

  /** Index wrap-around as intended: the index is reduced modulo the
      number of URLs, so every index of a non-empty bank picks one. */
  function Pick(urls: seq<string>, n: int): (r: Option<string>)
    ensures r.Some? <==> |urls| > 0
    ensures r.Some? ==> r.value in urls
    ensures 0 <= n < |urls| ==> r == Some(urls[n])
  {
    if |urls| == 0 then None else Some(urls[n % |urls|])
  }

  /** Picking is periodic in the index with the bank's length: together
      with `Pick(urls, k) == Some(urls[k])` for in-range `k`, this is
      wrap-around in both directions. */
  lemma PickWraps(urls: seq<string>, n: int)
    requires |urls| > 0
    ensures Pick(urls, n + |urls|) == Pick(urls, n)
    ensures Pick(urls, n - |urls|) == Pick(urls, n)
  {
    var d := |urls|;
    ModUnique(n + d, d, n / d + 1, n % d);
    ModUnique(n - d, d, n / d - 1, n % d);
  }

  /** Euclidean remainder is determined by any quotient-remainder split. */
  lemma ModUnique(n: int, d: int, q: int, r: int)
    requires d > 0 && 0 <= r < d
    requires n == q * d + r
    ensures n % d == r
  {
    var q0, r0 := n / d, n % d;
    assert n == q0 * d + r0;
    var k := q - q0;
    assert k * d == q * d - q0 * d;
    assert k * d == r0 - r;
    MultipleBelow(k, d);
  }

  /** A multiple of `d` strictly between `-d` and `d` is zero. */
  lemma MultipleBelow(k: int, d: int)
    requires d > 0
    requires -d < k * d < d
    ensures k == 0
  {
    MultipleAtLeast(k, d);
  }

  /** A non-zero multiple of `d` is at least `d` away from zero. */
  lemma MultipleAtLeast(k: int, d: int)
    requires d > 0
    ensures k >= 1 ==> k * d >= d
    ensures k <= -1 ==> k * d <= -d
  {
    if k >= 1 {
      assert k * d == (k - 1) * d + d;
      assert (k - 1) * d >= 0;
    } else if k <= -1 {
      assert k * d == (k + 1) * d - d;
      assert (k + 1) * d <= 0;
    }
  }

  /** The two agree on every non-negative index. */
  lemma PickAgreesOnNaturals(urls: seq<string>, n: int)
    requires n >= 0
    ensures PickAsWritten(urls, n) == Pick(urls, n)
  {
  }

  /** A negative index reads past the start of the array as written:
      index -1 of a three-sample bank yields nothing rather than the last
      sample. */
  lemma NegativeIndexMissesAsWritten()
    ensures PickAsWritten(["a", "b", "c"], -1) == None
    ensures Pick(["a", "b", "c"], -1) == Some("c")
  {
    assert JsRemainder(-1, 3) == -1;
    assert -1 % 3 == 2;
  }

  /** The index a control value stands for: numbers as they are, strings
      through `Number(...)`; `None` when `Number` gives `NaN`. */
  function IndexValue(v: Val): (r: Option<int>)
    ensures v.Num? ==> r == Some(v.i)
    ensures v.Text? ==> (r.Some? <==> IsNumeric(v.s))
    ensures v.Text? && IsNumeric(v.s) ==> r == Some(NumericValue(v.s))
  {
    match v
    case Num(i) => Some(i)
    case Text(t) => if IsNumeric(t) then Some(NumericValue(t)) else None
  }

  /** The URL a control value `n` picks from an array, with the index
      reduced modulo the array's length (`Pick`); this is the corrected
      reading of `bank[n % bank.length]`, which differs from the code as
      written for negative indices (see `PickAsWritten`). */
  function PickVal(urls: seq<string>, n: Val): (r: Option<string>)
    ensures r.Some? ==> r.value in urls
    ensures r.Some? <==> |urls| > 0 && IndexValue(n).Some?
  {
    match IndexValue(n)
    case None => None
    case Some(i) => Pick(urls, i)
  }

  /** A control value that reads as index `k` picks the URL at `k`
      reduced modulo the bank's length. */
  lemma PickValAt(urls: seq<string>, n: Val, k: int)
    requires |urls| > 0 && IndexValue(n) == Some(k)
    ensures PickVal(urls, n) == Some(urls[k % |urls|])
  {
  }

  // ---------------------------------------------------------------------
  // Nearest note key

  /** The keys the note search considers: those not starting with `'_'`,
      in key order. */
  function Candidates(entries: seq<(string, seq<string>)>): (cs: seq<(string, seq<string>)>)
    ensures forall e :: e in cs <==> e in entries && !StartsWith(e.0, "_")
    ensures |cs| <= |entries|
    ensures |entries| == 1 && StartsWith(entries[0].0, "_") ==> cs == []
    ensures |entries| == 1 && !StartsWith(entries[0].0, "_") ==> cs == entries
  {
    if |entries| == 0 then []
    else
      (if StartsWith(entries[0].0, "_") then [] else [entries[0]]) + Candidates(entries[1..])
  }

  /** Filtering keeps key order: the candidates of a concatenation are
      the candidates of each part, in turn. */
  lemma {:induction false} CandidatesAppend(a: seq<(string, seq<string>)>, b: seq<(string, seq<string>)>)
    ensures Candidates(a + b) == Candidates(a) + Candidates(b)
    decreases |a|
  {
    if |a| == 0 {
      assert a + b == b;
    } else {
      assert (a + b)[0] == a[0];
      assert (a + b)[1..] == a[1..] + b;
      CandidatesAppend(a[1..], b);
    }
  }

  /** Distance in semitones between a key and the requested note. */
  function Dist(toMidi: Val -> int, note: Val, key: string): (r: nat)
    ensures r == 0 <==> toMidi(Text(key)) == toMidi(note)
    ensures toMidi(Text(key)) >= toMidi(note) ==> r == toMidi(Text(key)) - toMidi(note)
    ensures toMidi(Text(key)) < toMidi(note) ==> r == toMidi(note) - toMidi(Text(key))
  {
    Abs(toMidi(Text(key)) - toMidi(note))
  }

  /** The `reduce` over candidate keys, left to right: the running choice
      is replaced when there is none yet, when it is the (falsy) empty
      key, or when the new key is strictly nearer. The result is an index
      into `cs`. */
  function Nearest(cs: seq<(string, seq<string>)>, toMidi: Val -> int, note: Val): (r: Option<nat>)
    ensures r.Some? <==> |cs| > 0
    ensures r.Some? ==> r.value < |cs|
    decreases |cs|
  {
    if |cs| == 0 then None
    else
      var last := |cs| - 1;
      var acc := Nearest(cs[..last], toMidi, note);
      if acc.None? || cs[acc.value].0 == ""
         || Dist(toMidi, note, cs[last].0) < Dist(toMidi, note, cs[acc.value].0)
      then Some(last)
      else acc
  }

  /** Index `i` holds the first of the keys nearest to the note. */
  ghost predicate FirstNearest(cs: seq<(string, seq<string>)>, toMidi: Val -> int, note: Val, i: int) {
    && 0 <= i < |cs|
    && (forall j :: 0 <= j < |cs| ==> Dist(toMidi, note, cs[i].0) <= Dist(toMidi, note, cs[j].0))
    && (forall j :: 0 <= j < i ==> Dist(toMidi, note, cs[i].0) < Dist(toMidi, note, cs[j].0))
  }

  /** When no candidate key is the empty string, the reduce picks the
      first nearest key: a tie keeps the earlier key because the
      comparison is strict. */
  lemma {:induction false} NearestIsFirstNearest(cs: seq<(string, seq<string>)>, toMidi: Val -> int, note: Val)
    requires |cs| > 0
    requires forall j :: 0 <= j < |cs| ==> cs[j].0 != ""
    ensures Nearest(cs, toMidi, note).Some?
    ensures FirstNearest(cs, toMidi, note, Nearest(cs, toMidi, note).value)
    decreases |cs|
  {
    var last := |cs| - 1;
    if last > 0 {
      var p := cs[..last];
      assert forall j :: 0 <= j < |p| ==> p[j] == cs[j];
      NearestIsFirstNearest(p, toMidi, note);
      var i0 := Nearest(p, toMidi, note).value;
      assert cs[i0] == p[i0] && cs[i0].0 != "";
      if Dist(toMidi, note, cs[last].0) < Dist(toMidi, note, cs[i0].0) {
        assert Nearest(cs, toMidi, note) == Some(last);
      } else {
        assert Nearest(cs, toMidi, note) == Some(i0);
      }
    }
  }

  /** There is only one first nearest key. */
  lemma FirstNearestUnique(cs: seq<(string, seq<string>)>, toMidi: Val -> int, note: Val, i: int, k: int)
    requires FirstNearest(cs, toMidi, note, i)
    requires FirstNearest(cs, toMidi, note, k)
    ensures i == k
  {
    // Both are nearest, so their distances are equal; the strict bound
    // on earlier keys then rules out either coming first.
    assert Dist(toMidi, note, cs[i].0) == Dist(toMidi, note, cs[k].0);
  }

  // ---------------------------------------------------------------------
  // Transposition

  /** For an array bank the repitch is measured from C3 (MIDI 36 in
      this scale): `toMidi(note) - 36` when a note is given, else 0. */
  function ArrayTranspose(toMidi: Val -> int, note: Option<Val>): (r: int)
    ensures !TruthyOpt(note) ==> r == 0
    ensures TruthyOpt(note) ==> r + 36 == toMidi(note.value)
  {
    if TruthyOpt(note) then toMidi(note.value) - 36 else 0
  }

  // ---------------------------------------------------------------------
  // Selection

  /** Which sample `getSampleBufferSource(s, n, note)` loads, and its
      repitch; or why it throws before loading. */
  function Select(samples: Option<map<string, Bank>>, s: string, n: Val, note: Option<Val>,
                  toMidi: Val -> int): (r: Result<Choice, SelectError>)
    ensures r == Err(NoSamplesLoaded) <==> samples.None?
    ensures r == Err(SampleNotFound) <==>
              samples.Some? && (s !in samples.value || samples.value[s].Falsy?)
    ensures r == Err(WrongFormat) <==> samples.Some? && s in samples.value && samples.value[s].NotObject?
    ensures r == Err(NoNote) <==>
              samples.Some? && s in samples.value && samples.value[s].Notes? && !TruthyOpt(note)
    ensures r.Ok? ==> samples.Some? && s in samples.value
    ensures samples.Some? && s in samples.value && samples.value[s].Urls? ==>
              (r.Ok? <==> |samples.value[s].urls| > 0 && IndexValue(n).Some?)
              && (r.Err? ==> r.error == NoSampleAt)
    ensures r == Err(NoCandidateKey) <==>
              && samples.Some? && s in samples.value && samples.value[s].Notes? && TruthyOpt(note)
              && Candidates(samples.value[s].entries) == []
    ensures samples.Some? && s in samples.value && samples.value[s].Notes? && TruthyOpt(note)
            && Candidates(samples.value[s].entries) != [] ==>
              var cs := Candidates(samples.value[s].entries);
              var i := Nearest(cs, toMidi, note.value).value;
              (r.Ok? <==> |cs[i].1| > 0 && IndexValue(n).Some?)
              && (r.Err? ==> r.error == NoSampleAt)
    ensures r.Ok? && samples.value[s].Urls? ==>
              r.value.url in samples.value[s].urls
              && r.value.transpose == ArrayTranspose(toMidi, note)
    ensures r.Ok? && samples.value[s].Notes? ==>
              exists e :: e in samples.value[s].entries && !StartsWith(e.0, "_")
                && r.value.url in e.1
                && r.value.transpose + toMidi(Text(e.0)) == toMidi(note.value)
  {
    match samples
    case None => Err(NoSamplesLoaded)
    case Some(registry) =>
      if s !in registry then Err(SampleNotFound)
      else
        match registry[s]
        case Falsy => Err(SampleNotFound)
        case NotObject => Err(WrongFormat)
        case Urls(urls) =>
          (match PickVal(urls, n)
           case None => Err(NoSampleAt)
           case Some(url) => Ok(Choice(url, ArrayTranspose(toMidi, note))))
        case Notes(entries) =>
          if !TruthyOpt(note) then Err(NoNote)
          else
            var cs := Candidates(entries);
            match Nearest(cs, toMidi, note.value)
            case None => Err(NoCandidateKey)
            case Some(i) =>
              assert cs[i] in entries;
              match PickVal(cs[i].1, n)
              case None => Err(NoSampleAt)
              case Some(url) => Ok(Choice(url, toMidi(note.value) - toMidi(Text(cs[i].0))))
  }

  /** An array bank plays the URL at the index reduced modulo the
      bank's length, for any control value the index is read from (a
      number, or a numeric string such as the `"3"` of `"bd:3"`). It is
      repitched from C3 by the note when one is given, and not at all
      otherwise. For a non-negative index this is also the URL the code
      as written reads. */
  lemma ArraySelection(samples: map<string, Bank>, s: string, n: Val, i: int, note: Option<Val>, toMidi: Val -> int)
    requires s in samples && samples[s].Urls? && |samples[s].urls| > 0
    requires IndexValue(n) == Some(i)
    ensures var urls := samples[s].urls;
            && Select(Some(samples), s, n, note, toMidi)
               == Ok(Choice(urls[i % |urls|], ArrayTranspose(toMidi, note)))
            && (i >= 0 ==> PickAsWritten(urls, i) == Some(urls[i % |urls|]))
    ensures TruthyOpt(note) ==>
              Select(Some(samples), s, n, note, toMidi).value.transpose == toMidi(note.value) - 36
    ensures !TruthyOpt(note) ==> Select(Some(samples), s, n, note, toMidi).value.transpose == 0
  {
  }

  /** A note-keyed bank plays from the key the reduce settles on, at the
      index read from `n` reduced modulo that key's number of URLs. */
  lemma NoteChoice(samples: map<string, Bank>, s: string, n: Val, k: int, note: Val, toMidi: Val -> int)
    requires s in samples && samples[s].Notes? && Truthy(note)
    requires IndexValue(n) == Some(k)
    requires var cs := Candidates(samples[s].entries);
             var i := Nearest(cs, toMidi, note);
             i.Some? && |cs[i.value].1| > 0
    ensures var cs := Candidates(samples[s].entries);
            var i := Nearest(cs, toMidi, note).value;
            Select(Some(samples), s, n, Some(note), toMidi)
            == Ok(Choice(cs[i].1[k % |cs[i].1|], toMidi(note) - toMidi(Text(cs[i].0))))
  {
    var cs := Candidates(samples[s].entries);
    var i := Nearest(cs, toMidi, note).value;
    PickValAt(cs[i].1, n, k);
  }

  /** A note-keyed bank plays from the first nearest key (when no key is
      the empty string), at the index read from `n` reduced modulo that
      key's number of URLs, repitched by the distance from that key to the
      note. */
  lemma NoteSelection(samples: map<string, Bank>, s: string, n: Val, k: int, note: Val, toMidi: Val -> int)
    requires s in samples && samples[s].Notes?
    requires Truthy(note)
    requires IndexValue(n) == Some(k)
    requires forall e :: e in samples[s].entries ==> e.0 != ""
    requires var cs := Candidates(samples[s].entries); |cs| > 0 && forall j :: 0 <= j < |cs| ==> |cs[j].1| > 0
    ensures var cs := Candidates(samples[s].entries);
            var i := Nearest(cs, toMidi, note);
            && i.Some?
            && FirstNearest(cs, toMidi, note, i.value)
            && Select(Some(samples), s, n, Some(note), toMidi)
               == Ok(Choice(cs[i.value].1[k % |cs[i.value].1|], toMidi(note) - toMidi(Text(cs[i.value].0))))
  {
    var cs := Candidates(samples[s].entries);
    assert forall j :: 0 <= j < |cs| ==> cs[j] in samples[s].entries;
    NearestIsFirstNearest(cs, toMidi, note);
    NoteChoice(samples, s, n, k, note, toMidi);
  }
}

=== FILE: soundfont.dfy ===
/** `getSoundfontKey`: whether a sound name stands for a soundfont
    instrument, and which instrument key it resolves to. */
module Soundfont {
  import opened JsValues

  /** The soundfont package's list: the instrument keys (e.g.
      `"000_acoustic_grand_piano"`) and the General MIDI instrument names
      whose positions are meant to number them. */
  datatype FontList = FontList(instruments: seq<string>, names: seq<string>)

  /** `xs.indexOf(x)`: the first position of `x`, or -1. */
  function IndexOf(xs: seq<string>, x: string): (r: int)
    ensures -1 <= r < |xs|
    ensures r == -1 <==> x !in xs
    ensures r >= 0 ==> xs[r] == x && forall j :: 0 <= j < r ==> xs[j] != x
    decreases |xs|
  {
    if |xs| == 0 then -1
    else if xs[0] == x then 0
    else
      var r := IndexOf(xs[1..], x);
      if r == -1 then -1 else r + 1
  }

  /** The instrument number as the key prefix: padded with zeros to
      three digits (`5` to `"005"`, `42` to `"042"`), printed as is from
      100 on. */
  function Pad3(i: nat): (r: string)
    ensures AllDigits(r)
    ensures DigitsValue(r) == i
    ensures |r| >= 3
    ensures i < 1000 ==> |r| == 3
  {
    DecimalRoundTrip(i);
    DecimalLength(if i < 1000 then i else 0);
    var d := Decimal(i);
    if i < 10 then
      LeadingZero(d);
      LeadingZero("0" + d);
      assert "00" + d == "0" + ("0" + d);
      "00" + d
    else if i < 100 then
      LeadingZero(d);
      "0" + d
    else
      DecimalLabelLength(i);
      d
  }

  /** Numbers from 100 on have at least three digits. */
  lemma {:induction false} DecimalLabelLength(i: nat)
    requires i >= 100
    ensures |Decimal(i)| >= 3
    decreases i
  {
    if i >= 1000 {
      DecimalLabelLength(i / 10);
    } else {
      DecimalLength(i);
    }
  }

  /** Different instrument numbers give different prefixes. */
  lemma Pad3Injective(i: nat, k: nat)
    requires Pad3(i) == Pad3(k)
    ensures i == k
  {
  }

  /** The position `xs.find(x => x.startsWith(p))` stops at: the first
      element with prefix `p`. */
  function FirstPrefixed(xs: seq<string>, p: string): (r: Option<nat>)
    ensures r.None? <==> forall x :: x in xs ==> !StartsWith(x, p)
    ensures r.Some? ==> r.value < |xs| && StartsWith(xs[r.value], p)
    ensures r.Some? ==> forall j :: 0 <= j < r.value ==> !StartsWith(xs[j], p)
    decreases |xs|
  {
    if |xs| == 0 then None
    else if StartsWith(xs[0], p) then Some(0)
    else
      match FirstPrefixed(xs[1..], p)
      case None => None
      case Some(i) => Some(i + 1)
  }

  /** `getSoundfontKey(s)`: no key without a font list; the name itself
      when it is an instrument key; otherwise the first instrument whose key
      starts with the padded position of `s` among the instrument names. */
  function SoundfontKey(fonts: Option<FontList>, s: string): (r: Option<string>)
    ensures fonts.None? ==> r.None?
    ensures r.Some? ==> fonts.Some? && r.value in fonts.value.instruments
    ensures fonts.Some? && s in fonts.value.instruments ==> r == Some(s)
    ensures fonts.Some? && s !in fonts.value.instruments ==>
              (r.Some? <==>
                 (&& s in fonts.value.names
                  && exists x :: x in fonts.value.instruments
                       && StartsWith(x, Pad3(IndexOf(fonts.value.names, s)))))
    ensures r.Some? && r != Some(s) ==>
              StartsWith(r.value, Pad3(IndexOf(fonts.value.names, s)))
  {
    match fonts
    case None => None
    case Some(list) =>
      if s in list.instruments then Some(s)
      else
        var position := IndexOf(list.names, s);
        if position == -1 then None
        else
          match FirstPrefixed(list.instruments, Pad3(position))
          case None => None
          case Some(i) => Some(list.instruments[i])
  }

  /** When the name is not itself a key, the key found is the first one
      with the padded prefix: every instrument before it lacks the prefix. */
  lemma KeyIsFirstPrefixed(list: FontList, s: string)
    requires s !in list.instruments && s in list.names
    requires SoundfontKey(Some(list), s).Some?
    ensures var p := Pad3(IndexOf(list.names, s));
            exists i :: 0 <= i < |list.instruments|
              && list.instruments[i] == SoundfontKey(Some(list), s).value
              && forall j :: 0 <= j < i ==> !StartsWith(list.instruments[j], p)
  {
    var p := Pad3(IndexOf(list.names, s));
    var i := FirstPrefixed(list.instruments, p).value;
    assert list.instruments[i] == SoundfontKey(Some(list), s).value;
  }

  /** A name listed at position `p` of the instrument names resolves to
      the first instrument key that starts with `p` padded to three digits. */
  lemma NameResolvesByPosition(list: FontList, s: string, p: nat)
    requires s !in list.instruments
    requires p < |list.names| && list.names[p] == s
    requires forall j :: 0 <= j < p ==> list.names[j] != s
    requires |list.instruments| > 0 && StartsWith(list.instruments[0], Pad3(p))
    ensures SoundfontKey(Some(list), s) == Some(list.instruments[0])
  {
  }
}

=== FILE: split_name.dfy ===
/** `splitSN`: a compound sound or note name `"name:index"` is split into
    its name and index, unless the index part is not numeric. */
module SplitName {
  import opened JsValues

  /** The text before the first `':'` of `s` (all of `s` when it has none):
      the first part of `s.split(':')`. */
  function UpToColon(s: string): (r: string)
    ensures ':' !in r
    ensures r <= s && |r| <= |s|
    ensures |r| == |s| || s[|r|] == ':'
    ensures ':' in s ==> |r| < |s|
    decreases |s|
  {
    if |s| == 0 || s[0] == ':' then "" else [s[0]] + UpToColon(s[1..])
  }

  /** `splitSN(s, n)`: returns `(s, n)` unchanged when `s` has no `':'` or
      when the second part of `s.split(':')` is not numeric; otherwise the
      first two parts, the index kept as the string it was written as. */
  function SplitSN(s: string, n: Val): (r: (string, Val))
    ensures ':' !in s ==> r == (s, n)
    ensures r != (s, n) ==>
              && r.1.Text?
              && IsNumeric(r.1.s)
              && ':' !in r.0 && ':' !in r.1.s
              && r.0 + ":" + r.1.s <= s
  {
    if ':' !in s then (s, n)
    else
      var name := UpToColon(s);
      var index := UpToColon(s[|name| + 1..]);
      assert s == name + ":" + s[|name| + 1..];
      if !IsNumeric(index) then (s, n) else (name, Text(index))
  }

  /** Writing a colon-free name, `':'`, a colon-free numeric index and
      then nothing or a further `':'`-part, and splitting it, gives the
      name and the index back; the index passed in is ignored. */
  lemma SplitRecoversParts(name: string, index: string, rest: string, n: Val)
    requires ':' !in name && ':' !in index
    requires rest == "" || rest[0] == ':'
    requires IsNumeric(index)
    ensures SplitSN(name + ":" + index + rest, n) == (name, Text(index))
  {
    PartsOf(name, index, rest);
  }

  /** With a non-numeric index part the compound name is kept whole and
      the index passed in is returned unchanged. */
  lemma SplitKeepsNonNumeric(name: string, index: string, rest: string, n: Val)
    requires ':' !in name && ':' !in index
    requires rest == "" || rest[0] == ':'
    requires !IsNumeric(index)
    ensures SplitSN(name + ":" + index + rest, n) == (name + ":" + index + rest, n)
  {
    PartsOf(name, index, rest);
  }

  /** The two parts `s.split(':')` yields for `name + ":" + index + rest`. */
  lemma PartsOf(name: string, index: string, rest: string)
    requires ':' !in name && ':' !in index
    requires rest == "" || rest[0] == ':'
    ensures var s := name + ":" + index + rest;
            && ':' in s
            && UpToColon(s) == name
            && UpToColon(s[|name| + 1..]) == index
  {
    var s := name + ":" + index + rest;
    assert s == name + (":" + index + rest);
    assert s[|name|] == ':';
    UpToColonOf(name, ":" + index + rest);
    assert s[|name| + 1..] == index + rest;
    UpToColonOf(index, rest);
  }

  /** Every name with a colon has the shape the two lemmas above take: a
      colon-free name, `':'`, a colon-free index part, then nothing or a
      further `':'`-part. */
  lemma SplitCoversAll(s: string)
    requires ':' in s
    ensures var name := UpToColon(s);
            var tail := s[|name| + 1..];
            var index := UpToColon(tail);
            var rest := tail[|index|..];
            && s == name + ":" + index + rest
            && (rest == "" || rest[0] == ':')
  {
    var name := UpToColon(s);
    var tail := s[|name| + 1..];
    var index := UpToColon(tail);
    var rest := tail[|index|..];
    Reassemble(s, |name|, |index|);
    assert name == s[..|name|];
    assert index == s[|name| + 1..|name| + 1 + |index|];
    assert rest == s[|name| + 1 + |index|..];
  }

  /** Cutting a string around a colon and joining the pieces again
      gives the string back. */
  lemma Reassemble(s: string, i: nat, j: nat)
    requires i < |s| && s[i] == ':' && i + 1 + j <= |s|
    ensures s == s[..i] + ":" + s[i + 1..i + 1 + j] + s[i + 1 + j..]
  {
    assert s[i..] == [':'] + s[i + 1..];
    assert s[i + 1..] == s[i + 1..i + 1 + j] + s[i + 1 + j..];
  }

  /** The part before the first colon of `a + b`, when `a` has no colon
      and `b` starts with one or is empty, is `a`. */
  lemma {:induction false} UpToColonOf(a: string, b: string)
    requires ':' !in a
    requires b == "" || b[0] == ':'
    ensures UpToColon(a + b) == a
    decreases |a|
  {
    if |a| > 0 {
      assert (a + b)[1..] == a[1..] + b;
      UpToColonOf(a[1..], b);
    }
  }
}

=== FILE: trigger.dfy ===
/** The body of `Pattern.prototype.out`: for one hap, either no sound at
    all or the chain of stages that plays it. The audio context, buffer
    loading, the soundfont package and the pitch helpers are inputs
    (`World`); the result is the list of scheduled stages, in the order
    they are wired. */
module Trigger {
  import opened JsValues
  import opened SplitName
  import opened SampleBank
  import opened Soundfont
  import opened Envelope
  import opened Chain

  /** The controls of a hap's value; an absent control is `None`. */
  datatype Controls = Controls(
    freq: Option<real>, s: Option<string>, clip: Option<real>,
    n: Option<Val>, note: Option<Val>, gain: Option<real>,
    cutoff: Option<real>, resonance: Option<real>,
    hcutoff: Option<real>, hresonance: Option<real>,
    bandf: Option<real>, bandq: Option<real>, pan: Option<real>,
    attack: Option<real>, decay: Option<real>, sustain: Option<real>, release: Option<real>,
    speed: Option<real>, begin: Option<real>, end: Option<real>)

  /** A hap: its duration in cycles, its controls, and the velocity from
      its context. */
  datatype Hap = Hap(duration: real, value: Controls, velocity: Option<real>)

  /** What the soundfont package's `getFontBufferSource` did: threw, or
      returned a buffer source (`present`) or a falsy value. */
  datatype FontFetch = FontThrew | FontGave(present: bool)

  /** Everything outside this file the renderer consults: the audio
      clock when the event is triggered and again once loading is done,
      the loaded sample banks, the soundfont list, the pitch helpers
      `toMidi` and `fromMidi`, buffer loading (the duration of the loaded
      buffer, or `None` when loading fails) and the soundfont buffer
      request. */
  datatype World = World(
    currentTime: real, timeAfterLoad: real,
    samples: Option<map<string, Bank>>, fonts: Option<FontList>,
    toMidi: Val -> int, fromMidi: int -> real,
    loadBuffer: string -> Option<real>,
    fontBuffer: (string, Val) -> FontFetch)

  /** Why resolving a sample's buffer failed (caught and logged). */
  datatype Failure = Selection(error: SelectError) | LoadFailed | FontFailed

  /** Why an event makes no sound. */
  datatype Drop =
    | ZeroSpeed                       // speed 0 means no playback
    | ResolveFailed(cause: Failure)   // the buffer could not be resolved
    | StillLoading                    // the clock passed the onset while loading
    | NoBufferSource                  // the soundfont returned nothing

  datatype Outcome = Dropped(why: Drop) | Played(chain: seq<Stage>)

  /** The sound names played by an oscillator. */
  const Waveforms: seq<string> := ["sine", "square", "triangle", "sawtooth"]

  /** Oscillators are turned down to this level. */
  const SynthLevel: real := 0.3

  /** Soundfont and clipped sample voices hold this level, then fade out
      over `ReleaseLength` seconds after their nominal end. */
  const FadeLevel: real := 0.6
  const ReleaseLength: real := 0.1

  /** A fresh gain stage starts at unity. */
  const UnityGain: real := 1.0

  // ---------------------------------------------------------------------
  // Preparing the controls

  /** The hap's onset moved onto the audio clock: `currentTime + t - ct`. */
  function AlignedTime(t: real, ct: real, w: World): (start: real)
    ensures start - w.currentTime == t - ct
  {
    w.currentTime + t - ct
  }

  /** The sound name, index and note after splitting `"name:index"`
      forms: first of `s`, then of a string `note`, whose index wins. */
  function SplitNames(s: Option<string>, n: Val, note: Option<Val>): (r: (Option<string>, Val, Option<Val>))
    ensures r.0.Some? <==> s.Some?
    ensures r.2.Some? <==> note.Some?
    ensures note.Some? && note.value.Num? ==> r.2 == note
    ensures (s.None? || ':' !in s.value) && (note.None? || note.value.Num? || ':' !in note.value.s)
            ==> r == (s, n, note)
  {
    var (s1, n1) := if s.Some? then (var p := SplitSN(s.value, n); (Some(p.0), p.1)) else (s, n);
    if note.Some? && note.value.Text? then
      var p := SplitSN(note.value.s, n1);
      (s1, p.1, Some(Text(p.0)))
    else (s1, n1, note)
  }

  /** Two triggers keep their spacing on the audio clock, and a hap
      triggered at the reference time starts now. */
  lemma AlignedSpacing(t1: real, t2: real, ct: real, w: World)
    ensures AlignedTime(t1, ct, w) - AlignedTime(t2, ct, w) == t1 - t2
    ensures AlignedTime(ct, ct, w) == w.currentTime
  {
  }

  /** When both the sound and the note carry a numeric index, the sound
      keeps its name and the note its key, and the note's index wins. */
  lemma NoteIndexWins(name: string, index: string, rest: string,
                      key: string, keyIndex: string, keyRest: string, n: Val)
    requires ':' !in name && ':' !in index && IsNumeric(index)
    requires rest == "" || rest[0] == ':'
    requires ':' !in key && ':' !in keyIndex && IsNumeric(keyIndex)
    requires keyRest == "" || keyRest[0] == ':'
    ensures SplitNames(Some(name + ":" + index + rest), n, Some(Text(key + ":" + keyIndex + keyRest)))
            == (Some(name), Text(keyIndex), Some(Text(key)))
  {
    SplitRecoversParts(name, index, rest, n);
    SplitRecoversParts(key, keyIndex, keyRest, Text(index));
  }

  /** A sound name carrying a numeric index keeps that index when the
      note carries none. */
  lemma SoundIndexKept(name: string, index: string, rest: string, n: Val, note: Option<Val>)
    requires ':' !in name && ':' !in index && IsNumeric(index)
    requires rest == "" || rest[0] == ':'
    requires note.None? || note.value.Num? || ':' !in note.value.s
    ensures SplitNames(Some(name + ":" + index + rest), n, note) == (Some(name), Text(index), note)
  {
    SplitRecoversParts(name, index, rest, n);
    if note.Some? && note.value.Text? {
      assert SplitSN(note.value.s, Text(index)) == (note.value.s, Text(index));
    }
  }

  /** A note `key:index` with a numeric index splits into its key and
      that index, whatever the sound name is; a compound sound name is
      split first, and its index is overridden. */
  lemma NoteSplits(s: Option<string>, key: string, keyIndex: string, keyRest: string, n: Val)
    requires ':' !in key && ':' !in keyIndex && IsNumeric(keyIndex)
    requires keyRest == "" || keyRest[0] == ':'
    ensures SplitNames(s, n, Some(Text(key + ":" + keyIndex + keyRest)))
            == (if s.Some? then Some(SplitSN(s.value, n).0) else None, Text(keyIndex), Some(Text(key)))
  {
    var n1 := if s.Some? then SplitSN(s.value, n).1 else n;
    SplitRecoversParts(key, keyIndex, keyRest, n1);
  }

  /** The names of the hap after splitting (default index 0). */
  function Names(v: Controls): (r: (Option<string>, Val, Option<Val>))
    ensures r.0.Some? <==> v.s.Some?
    ensures r.2.Some? <==> v.note.Some?
    ensures (v.s.None? || ':' !in v.s.value) && (v.note.None? || v.note.value.Num? || ':' !in v.note.value.s)
            ==> r == (v.s, if v.n.Some? then v.n.value else Num(0), v.note)
  {
    SplitNames(v.s, OrElse(v.n, Num(0)), v.note)
  }

  /** `!s || ['sine', 'square', 'triangle', 'sawtooth'].includes(s)`. */
  predicate IsSynth(s: Option<string>): (b: bool)
    ensures s.None? || s.value == "" ==> b
    ensures s.Some? && s.value != "" ==>
              (b <==> s.value == "sine" || s.value == "square" || s.value == "triangle" || s.value == "sawtooth")
  {
    s.None? || s.value == "" || s.value in Waveforms
  }

  /** The event's gain: `gain` (default 1) times the context's `velocity`
      (default 1). */
  function MasterLevel(hap: Hap): (r: real)
    ensures hap.velocity.None? ==> r == OrElse(hap.value.gain, 1.0)
    ensures hap.value.gain.None? ==> r == OrElse(hap.velocity, 1.0)
    ensures hap.value.gain == Some(0.0) || hap.velocity == Some(0.0) ==> r == 0.0
  {
    OrElse(hap.value.gain, 1.0) * OrElse(hap.velocity, 1.0)
  }

  // ---------------------------------------------------------------------
  // The synth voice

  /** The MIDI number a synth plays: the note if truthy, else the index;
      a string goes through `toMidi`. */
  function SynthMidi(n: Val, note: Option<Val>, toMidi: Val -> int): (r: int)
    ensures TruthyOpt(note) && note.value.Num? ==> r == note.value.i
    ensures TruthyOpt(note) && note.value.Text? ==> r == toMidi(note.value)
    ensures !TruthyOpt(note) && n.Num? ==> r == n.i
    ensures !TruthyOpt(note) && n.Text? ==> r == toMidi(n)
  {
    var pitch := if TruthyOpt(note) then note.value else n;
    match pitch
    case Num(i) => i
    case Text(_) => toMidi(pitch)
  }

  /** The oscillator, the fixed level-down and the ADSR envelope (velocity
      1, anchored at the onset and the hap's end). */
  function SynthVoice(s: Option<string>, n: Val, note: Option<Val>, v: Controls,
                      start: real, dur: real, w: World): (c: seq<Stage>)
    ensures |c| == 3 && c[0].Oscillator? && c[1].Attenuator? && c[2].EnvelopeGain?
    ensures Ordered(c) && forall i :: 0 <= i < |c| ==> Rank(c[i]) < 3
  {
    var release := OrElse(v.release, 0.001);
    var freq := if TruthyNum(v.freq) then v.freq.value else w.fromMidi(SynthMidi(n, note, w.toMidi));
    var wave := if s.None? || s.value == "" then "triangle" else s.value;
    [ Oscillator(wave, freq, start, start + dur + release),
      Attenuator(SynthLevel),
      EnvelopeGain(UnityGain, ADSR(OrElse(v.attack, 0.001), OrElse(v.decay, 0.05),
                                   OrElse(v.sustain, 0.5), release, 1.0, start, start + dur)) ]
  }

  // ---------------------------------------------------------------------
  // The sample voice

  /** A resolved buffer source: from the soundfont package (which may
      have returned nothing), or a chosen sample and the duration of its
      loaded buffer. */
  datatype Source =
    | FontSource(key: string, present: bool)
    | SampleSource(choice: Choice, bufferDuration: real)

  /** The awaited part of the sample path: the soundfont request when the
      name resolves to a soundfont key, sample selection and loading
      otherwise. Every failure is caught. */
  function Resolve(s: string, n: Val, note: Option<Val>, w: World): (r: Result<Source, Failure>)
    ensures SoundfontKey(w.fonts, s).Some? ==>
              (r.Ok? <==> w.fontBuffer(SoundfontKey(w.fonts, s).value, if TruthyOpt(note) then note.value else n).FontGave?)
    ensures SoundfontKey(w.fonts, s).None? ==>
              (r.Ok? <==> (&& Select(w.samples, s, n, note, w.toMidi).Ok?
                           && w.loadBuffer(Select(w.samples, s, n, note, w.toMidi).value.url).Some?))
    ensures r.Ok? && r.value.SampleSource? ==> Select(w.samples, s, n, note, w.toMidi) == Ok(r.value.choice)
    ensures r.Ok? && r.value.SampleSource? ==> w.loadBuffer(r.value.choice.url) == Some(r.value.bufferDuration)
    ensures SoundfontKey(w.fonts, s).Some? && r.Ok? ==>
              r.value == FontSource(SoundfontKey(w.fonts, s).value,
                                    w.fontBuffer(SoundfontKey(w.fonts, s).value, if TruthyOpt(note) then note.value else n).present)
    ensures SoundfontKey(w.fonts, s).Some? && r.Err? ==> r.error == FontFailed
    ensures SoundfontKey(w.fonts, s).None? && Select(w.samples, s, n, note, w.toMidi).Err? ==>
              r == Err(Selection(Select(w.samples, s, n, note, w.toMidi).error))
    ensures SoundfontKey(w.fonts, s).None? && Select(w.samples, s, n, note, w.toMidi).Ok? && r.Err? ==>
              r.error == LoadFailed
  {
    match SoundfontKey(w.fonts, s)
    case Some(key) =>
      (match w.fontBuffer(key, if TruthyOpt(note) then note.value else n)
       case FontThrew => Err(FontFailed)
       case FontGave(present) => Ok(FontSource(key, present)))
    case None =>
      match Select(w.samples, s, n, note, w.toMidi)
      case Err(e) => Err(Selection(e))
      case Ok(choice) =>
        match w.loadBuffer(choice.url)
        case None => Err(LoadFailed)
        case Some(d) => Ok(SampleSource(choice, d))
  }

  /** Soundfont voices and clipped samples play for the hap's duration
      and get a fade-out tail. */
  predicate Clipped(src: Source, clip: Option<real>): (b: bool)
    ensures src.FontSource? ==> b
    ensures src.SampleSource? ==> (b <==> clip.Some? && clip.value != 0.0)
  {
    src.FontSource? || TruthyNum(clip)
  }

  /** The length the trim fractions apply to: the hap's duration when
      clipped, the buffer's own duration otherwise. */
  function BaseDuration(src: Source, clip: Option<real>, dur: real): (r: real)
    ensures src.FontSource? ==> r == dur
    ensures src.SampleSource? && TruthyNum(clip) ==> r == dur
    ensures src.SampleSource? && !TruthyNum(clip) ==> r == src.bufferDuration
  {
    if Clipped(src, clip) then dur else src.bufferDuration
  }

  /** The buffer source and, when clipped, its fade-out envelope. */
  function Playback(src: Source, v: Controls, start: real, dur: real): (c: seq<Stage>)
    requires OrElse(v.speed, 1.0) != 0.0
    ensures |c| == (if Clipped(src, v.clip) then 2 else 1)
    ensures c[0].BufferSource? && c[0].start == start
    ensures Ordered(c) && forall i :: 0 <= i < |c| ==> Rank(c[i]) < 3
  {
    var speed := AbsReal(OrElse(v.speed, 1.0));
    var begin := OrElse(v.begin, 0.0);
    var base := BaseDuration(src, v.clip, dur);
    var offset := begin * base;
    var playFor := (OrElse(v.end, 1.0) - begin) * base / speed;
    var origin := match src
      case FontSource(key, _) => Font(key)
      case SampleSource(choice, _) => Sample(choice.url, choice.transpose);
    if Clipped(src, v.clip) then
      [ BufferSource(origin, speed, offset, None, start, start + playFor + ReleaseLength),
        EnvelopeGain(FadeLevel, [ Breakpoint(start + playFor, FadeLevel, Jump),
                                  Breakpoint(start + playFor + ReleaseLength, 0.0, Ramp) ]) ]
    else
      [ BufferSource(origin, speed, offset, Some(playFor), start, start + playFor) ]
  }

  /** The sample path after the mode choice: the speed check, resolution,
      the deadline check, the missing-source check, then playback. */
  function SampleVoice(s: string, n: Val, note: Option<Val>, v: Controls,
                       start: real, dur: real, w: World): (r: Result<seq<Stage>, Drop>)
    ensures r.Ok? ==> |r.value| >= 1 && r.value[0].BufferSource?
    ensures r.Ok? ==> Ordered(r.value) && forall i :: 0 <= i < |r.value| ==> Rank(r.value[i]) < 3
  {
    if OrElse(v.speed, 1.0) == 0.0 then Err(ZeroSpeed)
    else
      match Resolve(s, n, note, w)
      case Err(f) => Err(ResolveFailed(f))
      case Ok(src) =>
        if w.timeAfterLoad > start then Err(StillLoading)
        else if src.FontSource? && !src.present then Err(NoBufferSource)
        else Ok(Playback(src, v, start, dur))
  }

  // ---------------------------------------------------------------------
  // The event

  /** The chain after the voice, from the hap's controls. */
  function HapTail(hap: Hap): (r: seq<Stage>)
    ensures |r| >= 2 && r[0] == MasterGain(MasterLevel(hap)) && r[|r| - 1] == Destination
    ensures Ordered(r) && RanksFrom(r, 3)
  {
    var v := hap.value;
    Tail(MasterLevel(hap), v.cutoff, OrElse(v.resonance, 1.0), v.hcutoff, OrElse(v.hresonance, 1.0),
         v.bandf, OrElse(v.bandq, 1.0), v.pan)
  }

  /** The stages that make the sound, or why there is none: a synth
      voice, or the sample path's outcome. */
  function Voice(hap: Hap, t: real, ct: real, cps: real, w: World): (r: Result<seq<Stage>, Drop>)
    requires cps > 0.0
    ensures r.Ok? ==> |r.value| >= 1 && IsSource(r.value[0])
    ensures r.Ok? ==> Ordered(r.value) && forall i :: 0 <= i < |r.value| ==> Rank(r.value[i]) < 3
  {
    var dur := hap.duration / cps;
    var start := AlignedTime(t, ct, w);
    var (s, n, note) := Names(hap.value);
    if IsSynth(s) then Ok(SynthVoice(s, n, note, hap.value, start, dur, w))
    else SampleVoice(s.value, n, note, hap.value, start, dur, w)
  }

  /** The handler `out` registers, for a hap triggered at `t` with
      reference time `ct` at `cps` cycles per second: the voice followed
      by the common tail, or no sound. */
  function Out(hap: Hap, t: real, ct: real, cps: real, w: World): (r: Outcome)
    requires cps > 0.0
    ensures r.Played? ==> |r.chain| >= 3 && IsSource(r.chain[0]) && r.chain[|r.chain| - 1] == Destination
  {
    match Voice(hap, t, ct, cps, w)
    case Err(why) => Dropped(why)
    case Ok(voice) => Played(voice + HapTail(hap))
  }
}

=== FILE: values.dfy ===
/** JavaScript values as the event renderer sees them: optional fields,
    numbers-or-strings, truthiness, and the few string operations it uses
    (prefix test, the numeric check of `Number(...)`, decimal digits). */
module JsValues {

  /** An optional value; `None` stands for JavaScript's `undefined`. */
  datatype Option<+T> = None | Some(value: T)

  /** A value or the reason there is none. */
  datatype Result<+T, +E> = Ok(value: T) | Err(error: E)

  /** A destructuring default: `{ x = d } = obj` replaces only `undefined`. */
  function OrElse<T>(o: Option<T>, d: T): (r: T)
    ensures o.None? ==> r == d
    ensures o.Some? ==> r == o.value
  {
    match o
    case Some(v) => v
    case None => d
  }

  /** A control that may be a number or a string (`n`, `note`).
      Numbers are modelled as integers. */
  datatype Val = Num(i: int) | Text(s: string)

  /** JavaScript truthiness of a number or string: `0` and `""` are falsy. */
  predicate Truthy(v: Val) {
    match v
    case Num(i) => i != 0
    case Text(s) => s != ""
  }

  /** Truthiness of a possibly-undefined value. */
  predicate TruthyOpt(v: Option<Val>) {
    v.Some? && Truthy(v.value)
  }

  /** Truthiness of a possibly-undefined number. */
  predicate TruthyNum(x: Option<real>) {
    x.Some? && x.value != 0.0
  }

  /** `s.startsWith(p)`. */
  predicate StartsWith(s: string, p: string) {
    p <= s
  }

  function Abs(x: int): nat {
    if x < 0 then -x else x
  }

  function AbsReal(x: real): real {
    if x < 0.0 then -x else x
  }

  // ---------------------------------------------------------------------
  // Decimal digits

  predicate IsDigit(c: char) {
    '0' <= c <= '9'
  }

  predicate AllDigits(s: string) {
    forall i :: 0 <= i < |s| ==> IsDigit(s[i])
  }

  function DigitChar(d: nat): (c: char)
    requires d < 10
    ensures IsDigit(c)
    ensures (c as int) - ('0' as int) == d
  {
    (('0' as int) + d) as char
  }

  function DigitValue(c: char): nat
    requires IsDigit(c)
  {
    (c as int) - ('0' as int)
  }

  /** The value of a run of decimal digits (most significant first). */
  function DigitsValue(s: string): nat
    requires AllDigits(s)
    decreases |s|
  {
    if |s| == 0 then 0
    else 10 * DigitsValue(s[..|s| - 1]) + DigitValue(s[|s| - 1])
  }

  /** The shortest decimal spelling of `k`, as JavaScript prints a
      non-negative integer in a template string. */
  function Decimal(k: nat): (r: string)
    ensures |r| >= 1
    ensures AllDigits(r)
    decreases k
  {
    if k < 10 then [DigitChar(k)] else Decimal(k / 10) + [DigitChar(k % 10)]
  }

  /** Reading back the decimal spelling gives the number. */
  lemma {:induction false} DecimalRoundTrip(k: nat)
    ensures DigitsValue(Decimal(k)) == k
    decreases k
  {
    if k >= 10 {
      var p := Decimal(k / 10);
      var c := DigitChar(k % 10);
      assert Decimal(k) == p + [c];
      assert (p + [c])[..|p|] == p;
      DecimalRoundTrip(k / 10);
    }
  }

  /** The number of digits `Decimal` prints for a number below 1000. */
  lemma DecimalLength(k: nat)
    requires k < 1000
    ensures k < 10 ==> |Decimal(k)| == 1
    ensures 10 <= k < 100 ==> |Decimal(k)| == 2
    ensures 100 <= k ==> |Decimal(k)| == 3
  {
    if k >= 10 {
      assert |Decimal(k)| == |Decimal(k / 10)| + 1;
      if k >= 100 {
        assert |Decimal(k / 10)| == |Decimal(k / 100)| + 1;
      }
    }
  }

  /** A leading zero does not change the value of a digit run. */
  lemma {:induction false} LeadingZero(s: string)
    requires AllDigits(s)
    ensures AllDigits("0" + s)
    ensures DigitsValue("0" + s) == DigitsValue(s)
    decreases |s|
  {
    if |s| > 0 {
      var z := "0" + s;
      var init := s[..|s| - 1];
      assert z[..|z| - 1] == "0" + init;
      assert z[|z| - 1] == s[|s| - 1];
      LeadingZero(init);
    }
  }

  // ---------------------------------------------------------------------
  // The numeric check `!isNaN(Number(t))`

  /** An optional sign is stripped before the digits. */
  function Unsigned(t: string): string {
    if |t| > 0 && (t[0] == '-' || t[0] == '+') then t[1..] else t
  }

  /** The strings `Number(t)` reads as a number, restricted to integers:
      the empty string (which `Number` reads as 0) and an optionally signed
      non-empty run of decimal digits. */
  predicate IsNumeric(t: string): (b: bool)
    ensures AllDigits(t) ==> b
    ensures b ==> ':' !in t
    ensures b && t != "" ==> IsDigit(t[|t| - 1])
  {
    t == "" || (|Unsigned(t)| > 0 && AllDigits(Unsigned(t)))
  }

  /** `Number(t)` for a numeric string. */
  function NumericValue(t: string): (v: int)
    requires IsNumeric(t)
    ensures t == "" ==> v == 0
    ensures AllDigits(t) ==> v == DigitsValue(t)
    ensures t != "" && t[0] == '-' ==> v == -(DigitsValue(t[1..]) as int)
    ensures t != "" && t[0] == '+' ==> v == DigitsValue(t[1..])
  {
    if t == "" then 0 as int
    else if t[0] == '-' then 0 - (DigitsValue(t[1..]) as int)
    else DigitsValue(Unsigned(t))
  }

  /** A sign in front of a digit run: `-` negates the value, `+` keeps
      it. */
  lemma SignedNumeric(d: string)
    requires |d| > 0 && AllDigits(d)
    ensures IsNumeric(d) && IsNumeric("-" + d) && IsNumeric("+" + d)
    ensures NumericValue("-" + d) == -NumericValue(d)
    ensures NumericValue("+" + d) == NumericValue(d)
  {
    assert ("-" + d)[1..] == d;
    assert ("+" + d)[1..] == d;
  }

  /** `Number(Decimal(k))` is `k` again. */
  lemma NumericDecimal(k: nat)
    ensures IsNumeric(Decimal(k))
    ensures NumericValue(Decimal(k)) == k
  {
    DecimalRoundTrip(k);
  }
}
